=== FILE: README.md ===
# Account service balance core in Dafny

This project models the core of a small Spring account service. Users own up to ten accounts. Money leaves an account through a "use" debit, and a debit can be undone by a "cancel" credit that quotes the ledger record it reverses. Every valid request that names an existing account is recorded in the ledger: an S record when it succeeds, an F record when the service or the lock refuses it. A request with an invalid body, or one naming an unknown account number, writes nothing.

The model is purely functional. The repositories are one `State` value:
- users by id;
- accounts in creation order, so the last one is the newest;
- the ledger of transaction records.

Every operation returns a `Step`: the state after the call together with its value or exception. What the source takes from its surroundings becomes a parameter:
- the clock (`now`, and `yearLater` for `plusYears(1)`);
- the random UUID of the next record;
- the id the database generates for a new account, which is greater than every id handed out before;
- whether the Redis lock service grants a lock.

Modules, following the source's layers:

| module | models |
|---|---|
| `Types` | entities, enums, error codes, state |
| `Repository` | `findBy…` first-match lookups, `countByAccountUser` |
| `Decimal` | `Integer.parseInt`, `+ ""`, 32-bit wrap-around |
| `Uuid` | `UUID.randomUUID().toString().replace("-", "")` |
| `AccountEntity` | `Account` entity methods |
| `Dto` | `TransactionDto`, request constraints, `AccountLockId`, cancel response |
| `TransactionService` | use, cancel, FAIL records, query |
| `TransactionLemmas` | properties relating several service calls |
| `AccountService` | create, number generation, unregister, get |
| `LockAspect` | `LockAopAspect.aroundMethod` as a decorator with a trace of lock calls |
| `TransactionController` | the two endpoints with validation, locking and compensation |
| `Safety` | invariants of every reachable state |

Where the Java code is silent or inconsistent, the model makes these choices:
- `Account.cancelBalance` is called by `TransactionService`, but Account.java does not define it. It is modelled as adding the amount to the balance and changing nothing else.
- `TransactionService.queryTransaction` is not in the service file. It is modelled from its tests: the DTO of the record with that id, otherwise `TRANSACTION_NOT_FOUND`.
- `ErrorCode.java` lists only six codes, while the services raise thirteen. `Types.ErrorCode` has all thirteen.
- No method in the Java code carries `@AccountLock`, so where the lock sits is a choice of this model. The model wraps the service call inside each endpoint's `try` in the lock decorator, keyed by the request's account number. The lock is released before the catch block runs, so the compensating FAIL write runs outside the lock. The aspect's `args(request)` pointcut would in fact only match one-argument methods, that is the endpoints themselves. Placed there, the lock would enclose the `try`/`catch`: a refused lock would write no F record, and the F record would be written while the lock is held. Three groups of lemmas depend on this placement. The refused-lock cases of `TransactionController.UseWritesExactlyOneRecord` and `TransactionController.CancelWritesExactlyOneRecord` depend on it. So do the refused-lock cases of `TransactionController.MissingAccountSurfacesAsNotFound` and `TransactionController.MissingAccountCancelSurfacesAsNotFound`: with the lock on the endpoint, a refused lock on an unknown account would surface as ACCOUNT_TRANSACTION_LOCK, not ACCOUNT_NOT_FOUND. Finally, the F-record clause of `TransactionController.RefusedLockMovesNothing` depends on it; that lemma's other clauses (no Proceed, no balance moved, ACCOUNT_TRANSACTION_LOCK on an existing account) hold under either placement.
- `UseBalance.Request` does not declare `AccountLockId`, but its test uses it as one. Its lock key is its account number.
- `UseBalance.Response.from` does not exist. The use endpoint returns the `TransactionDto` itself.

## Model

| member | source | states |
|---|---|---|
| Repository.FindAccount | src/main/java/com/example/account/service/AccountService.java:94-97 | `findByAccountNumber`: the first account with that number, and none iff no account has it |
| Repository.FindUser | src/main/java/com/example/account/service/AccountService.java:120-123 | `accountUserRepository.findById`: a user iff the key is in the user table, and then the stored user (also read at TransactionService.java:39-40) |
| Repository.FindAccountById | src/main/java/com/example/account/service/AccountService.java:53-58 | `accountRepository.findById`: an account with that id, and none iff no account has it |
| Repository.FindTransaction | src/main/java/com/example/account/service/TransactionService.java:85-86 | `findByTransactionId`: the first record with that id, and none iff no record has it |
| Repository.CountOwned | src/main/java/com/example/account/service/AccountService.java:108-111 | `countByAccountUser`: at most the number of accounts, and zero iff the user owns none |
| Repository.CountOwnedAppend | src/main/java/com/example/account/service/AccountService.java:45-49 | saving a new account raises its owner's count by one and nobody else's |
| Repository.CountOwnedUpdate | src/main/java/com/example/account/service/TransactionService.java:46 | changing an account without changing its owner leaves every user's count alone |
| Repository.MaxId | src/main/java/com/example/account/service/AccountService.java:115 | the greatest account id: no account has a larger one, and some account has it |
| Repository.NewestHasGreatestId | src/main/java/com/example/account/service/AccountService.java:115 | while ids grow along the list, `findFirstByOrderByIdDesc` and "the last account" are the same account |
| Decimal.WrapInt32 | src/main/java/com/example/account/service/AccountService.java:116 | Java `int` addition: the result is always in range, in-range values are kept, and `MAX_VALUE + 1` becomes `MIN_VALUE` |
| Decimal.ParseInt | src/main/java/com/example/account/service/AccountService.java:116 | `Integer.parseInt`: an accepted text is in `int` range, and the empty text is refused |
| Decimal.ParseToDecimal | src/main/java/com/example/account/service/AccountService.java:116 | `parseInt` reads back every `int` that `+ ""` prints |
| Decimal.ToDecimalCanonical | src/main/java/com/example/account/service/AccountService.java:116 | `+ ""` prints no `+`, no leading zero and no `-0` |
| Decimal.CanonicalUnique | src/main/java/com/example/account/service/AccountService.java:116 | a canonical text that parses to a value is exactly what `+ ""` prints for it, so no other spelling of a number is canonical |
| Uuid.CanonicalText | src/main/java/com/example/account/service/TransactionService.java:78 | `UUID.toString` is 36 characters with hyphens at positions 8, 13, 18 and 23 and a lower-case hex digit at every other position, and the digits read in order are the UUID's 32 hex digits, as in section 3 of RFC 4122 |
| Uuid.RemovesGroupHyphens | src/main/java/com/example/account/service/TransactionService.java:78 | removing the hyphens from 32 hex digits grouped 8-4-4-4-12 gives back exactly those digits |
| Uuid.NewTransactionId | src/main/java/com/example/account/service/TransactionService.java:78 | a transaction id is 32 hex digits and reads back as the UUID it came from |
| Uuid.NewTransactionIdInjective | src/main/java/com/example/account/service/TransactionService.java:78 | distinct UUIDs give distinct transaction ids |
| AccountEntity.CreateAccount | src/main/java/com/example/account/domain/Account.java:37-45 | a new account is IN_USE and has the given number, owner and initial balance |
| AccountEntity.UnRegister | src/main/java/com/example/account/domain/Account.java:47-50 | closing sets UNREGISTERED and the closing time; nothing else changes |
| AccountEntity.UseBalance | src/main/java/com/example/account/domain/Account.java:52-57 | refuses with AMOUNT_EXCEED_BALANCE iff amount > balance; otherwise only the balance changes, down by the amount |
| AccountEntity.CancelBalance | src/main/java/com/example/account/service/TransactionService.java:92 | the credit changes only the balance, up by the amount |
| AccountEntity.UseBalanceKeepsNonNegative | src/main/java/com/example/account/domain/Account.java:52-57 | a debit from a non-negative balance never goes below zero, and can take the whole balance |
| AccountEntity.NegativeUseRaisesBalance | src/main/java/com/example/account/domain/Account.java:52-57 | the entity has no sign check, so a negative amount is accepted and raises the balance |
| AccountEntity.CancelUndoesUse | src/main/java/com/example/account/domain/Account.java:52-57 | a credit of the same amount restores the debited account exactly |
| AccountEntity.UnRegisterTwice | src/main/java/com/example/account/domain/Account.java:47-50 | closing twice is closing once at the later time |
| AccountEntity.CreatedAccountDebits | src/main/java/com/example/account/domain/Account.java:37-57 | a new account accepts a debit iff the amount is within its initial balance |
| Dto.FromEntity | src/main/java/com/example/account/dto/TransactionDto.java:23-33 | each DTO field is the record's field, and the account number is the record's account's number |
| Dto.FromEntityInjective | src/main/java/com/example/account/dto/TransactionDto.java:23-33 | for records of the same account, the DTOs are equal iff the records are |
| Dto.ValidUseRequestFields | src/main/java/com/example/account/dto/UseBalance.java:17-30 | a use request is valid iff the user id is at least 1, the account number is 10 characters and not blank, and the amount is between 10 and 1,000,000,000 |
| Dto.ValidCancelRequestFields | src/main/java/com/example/account/dto/CancelBalance.java:18-31 | a cancel request is valid iff the id is 32 characters, the account number is 10 characters and not blank, and the amount is between 10 and 1,000,000,000 |
| Dto.BlankAccountNumberRefused | src/main/java/com/example/account/dto/UseBalance.java:22-24 | ten spaces meet the size constraint but fail `@NotBlank` |
| Dto.LockKey | src/main/java/com/example/account/service/LockAopAspect.java:26 | the lock key of a use or cancel request is its account number |
| Dto.CancelResponseFrom | src/main/java/com/example/account/dto/CancelBalance.java:44-52 | the response copies the account number, result type, id, amount and time of the DTO |
| Dto.CancelResponseOfRecord | src/main/java/com/example/account/dto/CancelBalance.java:44-52 | the response to a cancel reports the record that was written |
| TransactionService.NewRecord | src/main/java/com/example/account/service/TransactionService.java:69-81 | a new record snapshots the account's balance as it is passed in, and has a 32-character id and the current time |
| TransactionService.Commit | src/main/java/com/example/account/service/TransactionService.java:46-48 | the end of a debit or credit always succeeds: only the given account moves, by exactly the signed amount, users stay, and one S record snapshotting the new balance is appended and reported |
| TransactionService.ValidateUseBalance | src/main/java/com/example/account/service/TransactionService.java:51-58 | passes iff the user owns the account, the account is IN_USE, and the amount is at most the balance; a refusal is an AccountException |
| TransactionService.UseBalance | src/main/java/com/example/account/service/TransactionService.java:37-49 | checks in order USER_NOT_FOUND, ACCOUNT_NOT_FOUND, ACCOUNT_OWNER_UN_MATCH, ACCOUNT_ALREADY_UNREGISTERED and AMOUNT_EXCEED_BALANCE, leaving the state unchanged on refusal; on success only that account moves, down by the amount, and one S USE record carrying the new balance is appended |
| TransactionService.EntityGuardMatchesValidation | src/main/java/com/example/account/service/TransactionService.java:44-46 | once validation has passed, the entity's own balance guard never fires |
| TransactionService.ValidateCancelBalance | src/main/java/com/example/account/service/TransactionService.java:97-106 | passes iff the record is of this account and for this amount, the request is no later than one year after the record, and the amount is not negative |
| TransactionService.CancelBalance | src/main/java/com/example/account/service/TransactionService.java:83-95 | checks in order TRANSACTION_NOT_FOUND, ACCOUNT_NOT_FOUND, TRANSACTION_ACCOUNT_UN_MATCH, TRANSACTION_AMOUNT_UN_MATCH, TOO_OLD_TRANSACTION_TO_CANCEL and INVALID_REQUEST, leaving the state unchanged on refusal; on success that account moves up by the amount and one S CANCEL record is appended |
| TransactionService.UseSuccessCommits | src/main/java/com/example/account/service/TransactionService.java:37-58 | a successful debit was by the owner, on an IN_USE account that covered it |
| TransactionService.CancelSuccessCommits | src/main/java/com/example/account/service/TransactionService.java:83-106 | a successful credit matched its record's account and amount, was within the year, and had a non-negative amount |
| TransactionService.CancelCommitsWhenMatched | src/main/java/com/example/account/service/TransactionService.java:83-106 | conversely, a cancel whose record and account exist, match in account and amount, are within the year and carry a non-negative amount always succeeds and credits that account |
| TransactionService.SaveFailedUseTransaction | src/main/java/com/example/account/service/TransactionService.java:61-67 | fails with ACCOUNT_NOT_FOUND iff the number is unknown, and then changes nothing; otherwise it appends exactly one F USE record with the unchanged balance, and no account changes |
| TransactionService.SaveFailedCancelTransaction | src/main/java/com/example/account/service/TransactionService.java:108-113 | the same as the line above, with an F CANCEL record |
| TransactionService.QueryTransaction | src/test/java/com/example/account/service/TransactionServiceTest.java:546-599 | TRANSACTION_NOT_FOUND iff no record has the id; otherwise the DTO of a ledger record with that id |
| TransactionLemmas.UseThenCancelRestoresBalance | src/main/java/com/example/account/service/TransactionService.java:37-106 | cancelling a fresh debit with the same account and amount, within the year, restores every account; both records stay in the ledger |
| TransactionLemmas.CancelTwice | src/main/java/com/example/account/service/TransactionService.java:83-106 | nothing marks a record as cancelled: the same cancel succeeds again and credits a second time |
| TransactionLemmas.CancelIgnoresRecordKind | src/main/java/com/example/account/service/TransactionService.java:97-106 | the referenced record's type (USE or CANCEL) and result (S or F) do not affect the cancel |
| TransactionLemmas.CancelCreditsClosedAccount | src/main/java/com/example/account/service/TransactionService.java:83-106 | an UNREGISTERED account can still be credited by a cancel |
| TransactionLemmas.QueryReadsCommittedRecord | src/test/java/com/example/account/service/TransactionServiceTest.java:546-599 | querying the id a successful debit reports returns that debit's DTO |
| TransactionLemmas.ExactlyOneYearAccepted | src/main/java/com/example/account/service/TransactionService.java:102-103 | the age check is strict: a cancel exactly one year after the record passes, one instant later it fails |
| TransactionLemmas.FindTransactionAppendFresh | src/main/java/com/example/account/service/TransactionService.java:85-86 | a record with a fresh id is found at the end of the ledger once appended |
| AccountService.NextAccountNumber | src/main/java/com/example/account/service/AccountService.java:116 | fails with NumberFormatException iff the last number does not parse; otherwise the text is canonical and reads back as the 32-bit wrapped successor, so it is the one spelling `+ ""` gives that successor |
| AccountService.CreateAccountNumber | src/main/java/com/example/account/service/AccountService.java:113-118 | "1000000000" for the first account; otherwise the canonical spelling of the successor of the newest account's number |
| AccountService.NextAfterSample | src/test/java/com/example/account/service/AccountServiceTest.java:41-78 | the number after "10002" is "10003" |
| AccountService.NextAccountNumberWraps | src/main/java/com/example/account/service/AccountService.java:116 | the number after "2147483647" is "-2147483648" |
| AccountService.ValidateCreateAccount | src/main/java/com/example/account/service/AccountService.java:108-111 | passes iff the user owns fewer than ten accounts, and otherwise fails with EXCEED_MAX_ACCOUNT_SIZE |
| AccountService.CreateAccount | src/main/java/com/example/account/service/AccountService.java:39-50 | given a generated id above every existing one: USER_NOT_FOUND, then EXCEED_MAX_ACCOUNT_SIZE, then a number failure (reported as NumberFormat), each with no change; on success one IN_USE, never-closed account is appended with the given balance and the next number, and the owner's count rises by one to at most ten |
| AccountService.NegativeInitialBalanceAccepted | src/main/java/com/example/account/service/AccountService.java:39-50 | as written, an account can be opened with a balance of -500 |
| AccountService.CreateAccountNonNegative | src/main/java/com/example/account/service/AccountService.java:39-50 | a negative initial balance is refused with INVALID_REQUEST; every other request behaves as createAccount; a created account's balance is not negative |
| AccountService.ValidateUnRegisterAccount | src/main/java/com/example/account/service/AccountService.java:99-106 | passes iff the user owns the account, its balance is at most zero, and it is not already UNREGISTERED |
| AccountService.UnRegisterAccount | src/main/java/com/example/account/service/AccountService.java:73-84 | USER_NOT_FOUND, ACCOUNT_NOT_FOUND, ACCOUNT_OWNER_UN_MATCH, BALANCE_REMAIN, ACCOUNT_ALREADY_UNREGISTERED in that order, with no change on refusal; on success that one account is closed at `now` with nothing else about it changed |
| AccountService.GetAccount | src/main/java/com/example/account/service/AccountService.java:52-58 | a negative id throws; otherwise it fails iff no account has the id, and returns the account with that id |
| LockAspect.AroundMethod | src/main/java/com/example/account/service/LockAopAspect.java:19-33 | locks the key first and unlocks it last, exactly once; proceeds iff the lock was granted, and otherwise ACCOUNT_TRANSACTION_LOCK propagates with the state unchanged |
| LockAspect.BracketedReleases | src/test/java/com/example/account/service/LockAopAspectTest.java:33-73 | one intercepted call, whether or not it proceeds, releases the key it locked |
| LockAspect.SerialCallsReleaseEveryLock | src/main/java/com/example/account/service/LockAopAspect.java:24-31 | in calls made one after another, no key is held at the end, and every proceed runs between a granted lock and the unlock of the same key |
| TransactionController.Compensate | src/main/java/com/example/account/controller/TransactionController.java:39-47 | only an AccountException triggers the FAIL save, and is then rethrown unchanged; an exception from the save replaces it; anything else passes through |
| TransactionController.UseEndpoint | src/main/java/com/example/account/controller/TransactionController.java:29-48 | an invalid body is refused before any lock or service call; otherwise the lock calls are bracketed on the account number, and the result is the locked debit's result, or its failure with the FAIL record written |
| TransactionController.CancelEndpoint | src/main/java/com/example/account/controller/TransactionController.java:50-69 | the same for cancel, with the response built by `CancelBalance.Response.from` |
| TransactionController.UseWritesExactlyOneRecord | src/main/java/com/example/account/controller/TransactionController.java:29-48 | a valid use on an existing account appends exactly one USE record, S iff the call succeeded; on failure no balance moves and the caller sees an AccountException |
| TransactionController.CancelWritesExactlyOneRecord | src/main/java/com/example/account/controller/TransactionController.java:50-69 | the same for cancel, with a CANCEL record |
| TransactionController.MissingAccountSurfacesAsNotFound | src/main/java/com/example/account/controller/TransactionController.java:39-47 | for a use request naming an unknown account the caller always gets ACCOUNT_NOT_FOUND and nothing is written, whatever failed first |
| TransactionController.MissingAccountCancelSurfacesAsNotFound | src/main/java/com/example/account/controller/TransactionController.java:60-68 | the same for a cancel request |
| TransactionController.RefusedLockMovesNothing | src/main/java/com/example/account/service/LockAopAspect.java:24-31 | a refused lock never enters the service and moves no balance; on an existing account the caller gets ACCOUNT_TRANSACTION_LOCK and exactly one F record is appended |
| TransactionController.UseSuccessDebits | src/main/java/com/example/account/dto/UseBalance.java:26-29 | a successful use came from a valid request, and takes at least 10 from exactly the requested account |
| TransactionController.CancelNeverInvalidRequest | src/main/java/com/example/account/service/TransactionService.java:104-105 | a validated cancel request can never be refused for a negative amount |
| TransactionController.UseResponseIsCancellable | src/main/java/com/example/account/dto/CancelBalance.java:19-21 | the id a successful use reports has the size a cancel request demands |
| TransactionController.UseThenCancelRestoresAccounts | src/main/java/com/example/account/controller/TransactionController.java:29-69 | through the endpoints, cancelling a successful use with its reported id, within the year, restores every account and keeps both records |
| Safety.ApplyKeepsSafe | src/main/java/com/example/account/service/TransactionService.java:37-113 | every entry point keeps balances and snapshots non-negative and every user at ten accounts or fewer, keeps account ids increasing along the list, keeps users and the user table keyed by each user's id, and keeps each account's id, number and owner; the ledger is append-only |
| Safety.UseKeepsSafe | src/main/java/com/example/account/controller/TransactionController.java:29-48 | a use request through the endpoint, served, refused or compensated, keeps the invariants and only extends the state |
| Safety.CancelKeepsSafe | src/main/java/com/example/account/controller/TransactionController.java:50-69 | the same for a cancel request |
| Safety.OpenKeepsSafe | src/main/java/com/example/account/service/AccountService.java:39-50 | opening an account, with negative starting balances refused and an id above every existing one, keeps the invariants; the new owner's count stays at ten or fewer |
| Safety.CloseKeepsSafe | src/main/java/com/example/account/service/AccountService.java:73-84 | closing an account keeps the invariants and every account's id, number and owner |
| Safety.RunKeepsSafe | src/main/java/com/example/account/service/AccountService.java:39-84 | any sequence of use, cancel, open and close calls keeps the invariants and only extends the state |
| Safety.ReachableIsSafe | src/main/java/com/example/account/service/AccountService.java:108-111 | every state reachable from a user table keyed by id, no accounts and no records satisfies the invariants, the user table staying keyed by id |
| Safety.ReachableNewestIsLast | src/main/java/com/example/account/service/AccountService.java:113-118 | in every state reachable from a user table keyed by id, the last account, from which the next number is taken, has the greatest id |
| Safety.CloseOnlyEmpty | src/main/java/com/example/account/service/AccountService.java:99-106 | in a reachable state an account is closed only at a balance of exactly zero |

## Left out

- Balances and amounts are unbounded integers. The source's `Long` would overflow past 2^63 - 1, and the model does not follow it there.
- The lock service's internals (Redis, the lock timeout) are not part of this model. A lock is granted or refused as a parameter, and `unlock` always returns normally.
- TransactionController.RefusedLockMovesNothing: no method in the Java code carries `@AccountLock`, so the lock's place is this model's choice: around the service call, so the compensating FAIL write runs outside the lock. Had the aspect been placed on the endpoints, the only methods its `args(request)` can match, a refused lock would write no F record, so only the F-record clause of this lemma rests on the choice. The refused-lock cases of `TransactionController.UseWritesExactlyOneRecord`, `TransactionController.CancelWritesExactlyOneRecord`, `TransactionController.MissingAccountSurfacesAsNotFound` and `TransactionController.MissingAccountCancelSurfacesAsNotFound` rest on the same choice; under the other placement a refused lock on an unknown account would report ACCOUNT_TRANSACTION_LOCK.
- Concurrency is left out. Locking is modelled as the trace of calls one request makes, plus the serial composition of such traces; interleaved requests are not modelled.
- HTTP status codes, response bodies of errors, logging, JSON mapping and the `CustomExceptionHandler` are left out. An exception is its `Exception` value.
- JPA dirty checking, `@Transactional` rollback and auditing timestamps are left out. Every operation returns its whole new state at once.
- A refused service call in the source never reaches a state change, so rollback never has anything to undo. The model relies on this.
- `LocalDateTime.plusYears(1)` is the parameter `yearLater`, an arbitrary function from instants to instants. Nothing is assumed of it: not monotonicity, and not that its result is later than its argument. Leap-day arithmetic is not modelled. "One year" in `TransactionLemmas.ExactlyOneYearAccepted` means whatever `yearLater` returns.
- Each request sees a single `now`. The source calls `LocalDateTime.now()` separately in the age check and in the new record.
- Decimal.ParseInt: accepts ASCII digits only. Java also accepts other Unicode decimal digits; the model refuses them.
- UUID randomness and collisions are not modelled. The UUID is a parameter.
- Repository.FindTransaction: when two records share an id, the model returns the first. Spring Data's `Optional` finder `findByTransactionId` throws `IncorrectResultSizeDataAccessException` instead. Only a repeated UUID can cause this.
- Repository.FindAccount: the same for two accounts with one number. `findByAccountNumber` would throw, while the model returns the first. Account.java declares no unique constraint on the number; numbering from the newest account never repeats a number until the 32-bit counter wraps.
- Dto.ValidUseRequestFields: `Dto.ValidUseRequest` counts characters, while `@NotBlank` and `@Size(min = 10, max = 10)` measure `String.length()` in UTF-16 code units. An account number of ten characters, one of them outside the Basic Multilingual Plane (such as U+1F600), has Java length 11. Java refuses it; the model accepts it.
- Dto.ValidCancelRequestFields: `Dto.ValidCancelRequest` has the same difference, for the account number and for the 32-character transaction id.
- `getAllAccountInfo`, `AccountDto`, `AccountInfo`, `QueryTransactionResponse` and the account controller are plain projections with no logic of the core, and are left out.
- UseBalance.java defines no `UseBalance.Response.from`. The use endpoint returns the `TransactionDto`.
- AccountService.GetAccount: the source throws a plain `RuntimeException("Minus")` for a negative id. The model names it `NegativeId`; the message is not modelled.
- TransactionService.QueryTransaction: states that the DTO belongs to some record with the id, not that it is the first such record. The order matters only when ids repeat, which needs the UUID source to repeat.

## Findings

| source | as written | input that shows it | evidently intended | confidence | as-written member | corrected member |
|---|---|---|---|---|---|---|
| src/main/java/com/example/account/service/AccountService.java:39-50 | `createAccount` stores any `initialBalance`, and `CreateAccount.Request` puts no constraint on it | user 1 exists with no accounts; `createAccount(1, -500)` succeeds and opens an account with balance -500 | an account never has a negative balance; the debit path keeps this, and unregistering treats a balance ≤ 0 as empty | medium, not executed | AccountService.NegativeInitialBalanceAccepted | AccountService.CreateAccountNonNegative |

=== FILE: account.dfy ===
/**
 The Account entity's own transitions: creation, closing, debit, and the
 compensating credit the cancel flow applies.
 */
module AccountEntity {
  import opened Types

  /**
   Account.createAccount. The id is the one the repository's save assigns;
   a new account is in use, holds the initial balance and has never been closed.
   */
  function CreateAccount(id: int, user: AccountUser, initialBalance: int, accountNumber: string): (a: Account)
    ensures a.status == IN_USE && a.unRegisteredAt.None?
    ensures a.balance == initialBalance
    ensures a.accountNumber == accountNumber && a.owner == user && a.id == id
  {
    Account(id, accountNumber, IN_USE, user, initialBalance, None)
  }

  /** Account.unRegister: closed at `now`; nothing else about the account changes. */
  function UnRegister(a: Account, now: Instant): (r: Account)
    ensures r.status == UNREGISTERED && r.unRegisteredAt == Some(now)
    ensures r.(status := a.status, unRegisteredAt := a.unRegisteredAt) == a
  {
    a.(status := UNREGISTERED, unRegisteredAt := Some(now))
  }

  /**
   Account.useBalance: refuses an amount above the balance and otherwise
   takes it off. The sign of the amount is not checked.
   */
  function UseBalance(a: Account, amount: int): (r: Result<Account>)
    ensures r.Failure? <==> amount > a.balance
    ensures r.Failure? ==> r.error == AccountError(AMOUNT_EXCEED_BALANCE)
    ensures r.Success? ==> r.value.balance + amount == a.balance
    ensures r.Success? ==> r.value.(balance := a.balance) == a
  {
    if amount > a.balance then Failure(AccountError(AMOUNT_EXCEED_BALANCE))
    else Success(a.(balance := a.balance - amount))
  }

  /**
   The credit cancelBalance applies. Account.cancelBalance is called by the
   service, but Account.java does not define it; it is taken to add the
   amount to the balance and change nothing else.
   */
  function CancelBalance(a: Account, amount: int): (r: Account)
    ensures r.balance - amount == a.balance
    ensures r.(balance := a.balance) == a
  {
    a.(balance := a.balance + amount)
  }

  /** A debit that succeeds from a non-negative balance leaves it non-negative. */
  lemma UseBalanceKeepsNonNegative(a: Account, amount: int)
    requires a.balance >= 0
    ensures UseBalance(a, amount).Success? ==> UseBalance(a, amount).value.balance >= 0
    ensures amount == a.balance ==> UseBalance(a, amount) == Success(a.(balance := 0))
  {
  }

  /** With no sign check, a negative amount is accepted and raises the balance. */
  lemma NegativeUseRaisesBalance(a: Account, amount: int)
    requires amount < 0 <= a.balance
    ensures UseBalance(a, amount).Success?
    ensures UseBalance(a, amount).value.balance > a.balance
  {
  }

  /** Cancelling a debit of the same amount restores the account exactly. */
  lemma CancelUndoesUse(a: Account, amount: int)
    requires amount <= a.balance
    ensures UseBalance(a, amount).Success?
    ensures CancelBalance(UseBalance(a, amount).value, amount) == a
  {
  }

  /** Closing twice leaves the account closed, with the later time and the same balance. */
  lemma UnRegisterTwice(a: Account, t1: Instant, t2: Instant)
    ensures UnRegister(UnRegister(a, t1), t2) == UnRegister(a, t2)
    ensures UnRegister(UnRegister(a, t1), t2).balance == a.balance
  {
  }

  /** A new account accepts a debit exactly when the amount is within the initial balance. */
  lemma CreatedAccountDebits(id: int, user: AccountUser, initialBalance: int, number: string, amount: int)
    ensures UseBalance(CreateAccount(id, user, initialBalance, number), amount).Success?
        <==> amount <= initialBalance
  {
  }
}

=== FILE: account_service.dfy ===
/**
 Account lifecycle: opening an account (at most ten per user, numbered one
 past the newest account's number) and closing one (never while a balance
 remains), plus the by-id read guarded against negative ids.
 */
module AccountService {
  import opened Types
  import opened Repository
  import opened Decimal
  import AccountEntity

  const INITIAL_ACCOUNT_NUMBER: string := "1000000000"
  const MAX_ACCOUNTS_PER_USER: nat := 10

  /**
   The number after `last`: Integer.parseInt(last) + 1 in 32-bit arithmetic,
   printed in decimal. It is a canonical spelling that reads back as the
   wrapped successor of `last`, so by CanonicalUnique it is the only such text.
   */
  function NextAccountNumber(last: string): (r: Result<string>)
    ensures r.Failure? <==> ParseInt(last).None?
    ensures r.Failure? ==> r.error == NumberFormat
    ensures r.Success? ==> ParseInt(r.value) == Some(WrapInt32(ParseInt(last).value + 1))
    ensures r.Success? ==> Canonical(r.value)
  {
    match ParseInt(last)
    case None => Failure(NumberFormat)
    case Some(v) =>
      var next := WrapInt32(v + 1);
      ParseToDecimal(next);
      ToDecimalCanonical(next);
      Success(ToDecimal(next))
  }

  /**
   createAccountNumber: the first number, or the one after the newest
   account's. The source asks for the account with the greatest id
   (findFirstByOrderByIdDesc); this reads the last account of the list,
   which is the same account while ids grow along the list
   (Repository.NewestHasGreatestId), as they do in every reachable state
   (Safety.ReachableNewestIsLast). On an arbitrary list it is just the last.
   */
  function CreateAccountNumber(accounts: seq<Account>): (r: Result<string>)
    ensures |accounts| == 0 ==> r == Success(INITIAL_ACCOUNT_NUMBER)
    ensures |accounts| > 0 ==> (r.Failure? <==> ParseInt(accounts[|accounts| - 1].accountNumber).None?)
    ensures |accounts| > 0 && r.Success? ==>
      ParseInt(r.value) == Some(WrapInt32(ParseInt(accounts[|accounts| - 1].accountNumber).value + 1))
    ensures r.Success? ==> Canonical(r.value)
  {
    if |accounts| == 0 then Success(INITIAL_ACCOUNT_NUMBER)
    else NextAccountNumber(accounts[|accounts| - 1].accountNumber)
  }

  /** The number after "10002" is "10003". */
  lemma NextAfterSample()
    ensures NextAccountNumber("10002") == Success("10003")
  {
    assert DigitsOf(10002) == "10002";
    ParseToDecimal(10002);
    assert DigitsOf(10003) == "10003";
  }

  /** The number after the greatest int wraps around to the least one. */
  lemma NextAccountNumberWraps()
    ensures NextAccountNumber(ToDecimal(INT_MAX)) == Success(ToDecimal(INT_MIN))
    ensures NextAccountNumber(ToDecimal(INT_MAX)) == Success("-2147483648")
  {
    ParseToDecimal(INT_MAX);
    IntMinText();
  }

  /** Writing one more digit after a number's spelling spells the number ten times larger plus that digit. */
  lemma DigitsAppend(n: nat, d: nat, text: string)
    requires 0 < n && d < 10 && DigitsOf(n) == text
    ensures DigitsOf(10 * n + d) == text + [DigitChar(d)]
  {
    assert (10 * n + d) / 10 == n && (10 * n + d) % 10 == d;
  }

  lemma DigitsOfIntMinHead()
    ensures DigitsOf(2147) == "2147"
  {
    assert DigitsOf(2) == "2";
    DigitsAppend(2, 1, "2");
    DigitsAppend(21, 4, "21");
    DigitsAppend(214, 7, "214");
  }

  lemma DigitsOfIntMinMiddle()
    ensures DigitsOf(2147483) == "2147483"
  {
    DigitsOfIntMinHead();
    DigitsAppend(2147, 4, "2147");
    DigitsAppend(21474, 8, "21474");
    DigitsAppend(214748, 3, "214748");
  }

  lemma IntMinText()
    ensures ToDecimal(INT_MIN) == "-2147483648"
  {
    DigitsOfIntMinMiddle();
    DigitsAppend(2147483, 6, "2147483");
    DigitsAppend(21474836, 4, "21474836");
    DigitsAppend(214748364, 8, "214748364");
  }

  /** validateCreateAccount */
  function ValidateCreateAccount(st: State, user: AccountUser): (o: Outcome)
    ensures o == Pass <==> CountOwned(st.accounts, user.id) < MAX_ACCOUNTS_PER_USER
    ensures o.Fail? ==> o.error == AccountError(EXCEED_MAX_ACCOUNT_SIZE)
  {
    if CountOwned(st.accounts, user.id) >= MAX_ACCOUNTS_PER_USER then Fail(AccountError(EXCEED_MAX_ACCOUNT_SIZE))
    else Pass
  }

  /**
   AccountService.createAccount. `newId` is the id the repository's save
   assigns; the generator gives an id greater than every id so far, and the
   new account is appended, so it becomes the newest.
   */
  function CreateAccount(st: State, userId: int, initialBalance: int, newId: int): (r: Step<Account>)
    requires forall j :: 0 <= j < |st.accounts| ==> st.accounts[j].id < newId
    ensures r.result.Failure? ==> r.state == st
    ensures userId !in st.users ==> r.result == Failure(AccountError(USER_NOT_FOUND))
    ensures userId in st.users && CountOwned(st.accounts, st.users[userId].id) >= MAX_ACCOUNTS_PER_USER
            ==> r.result == Failure(AccountError(EXCEED_MAX_ACCOUNT_SIZE))
    ensures userId in st.users && CountOwned(st.accounts, st.users[userId].id) < MAX_ACCOUNTS_PER_USER
            ==> r.result.Success? == CreateAccountNumber(st.accounts).Success?
    ensures (userId in st.users && CountOwned(st.accounts, st.users[userId].id) < MAX_ACCOUNTS_PER_USER
             && CreateAccountNumber(st.accounts).Failure?) ==> r.result == Failure(NumberFormat)
    ensures r.result.Success? ==>
      var a := r.result.value;
      && userId in st.users && a.owner == st.users[userId]
      && a.status == IN_USE && a.unRegisteredAt.None? && a.balance == initialBalance && a.id == newId
      && a.accountNumber == CreateAccountNumber(st.accounts).value
      && r.state == st.(accounts := st.accounts + [a])
      && CountOwned(r.state.accounts, a.owner.id) == CountOwned(st.accounts, a.owner.id) + 1
      && CountOwned(r.state.accounts, a.owner.id) <= MAX_ACCOUNTS_PER_USER
  {
    match FindUser(st, userId)
    case None => Step(st, Failure(AccountError(USER_NOT_FOUND)))
    case Some(user) =>
      match ValidateCreateAccount(st, user)
      case Fail(e) => Step(st, Failure(e))
      case Pass =>
        match CreateAccountNumber(st.accounts)
        case Failure(e) => Step(st, Failure(e))
        case Success(number) =>
          var account := AccountEntity.CreateAccount(newId, user, initialBalance, number);
          CountOwnedAppend(st.accounts, account, user.id);
          Step(st.(accounts := st.accounts + [account]), Success(account))
  }

  /**
   createAccount as evidently intended: an account never starts below zero.
   A negative initial balance is refused as an invalid request before anything
   else is looked at; every other request behaves as createAccount.
   */
  function CreateAccountNonNegative(st: State, userId: int, initialBalance: int, newId: int): (r: Step<Account>)
    requires forall j :: 0 <= j < |st.accounts| ==> st.accounts[j].id < newId
    ensures initialBalance < 0 ==> r == Step(st, Failure(AccountError(INVALID_REQUEST)))
    ensures initialBalance >= 0 ==> r == CreateAccount(st, userId, initialBalance, newId)
    ensures r.result.Success? ==> r.result.value.balance >= 0
  {
    if initialBalance < 0 then Step(st, Failure(AccountError(INVALID_REQUEST)))
    else CreateAccount(st, userId, initialBalance, newId)
  }

  /** As written, createAccount opens an account whose balance is already negative. */
  lemma NegativeInitialBalanceAccepted()
    ensures
      var st := State(map[1 := AccountUser(1, "Kim")], [], []);
      var r := CreateAccount(st, 1, -500, 1);
      r.result.Success? && r.result.value.balance < 0
  {
    var st := State(map[1 := AccountUser(1, "Kim")], [], []);
    assert CountOwned(st.accounts, 1) == 0;
  }

  /** validateUnRegisterAccount: ownership, then remaining balance, then status. */
  function ValidateUnRegisterAccount(user: AccountUser, account: Account): (o: Outcome)
    ensures o == Pass <==> account.owner.id == user.id && account.balance <= 0 && account.status != UNREGISTERED
    ensures o.Fail? ==> o.error.AccountError?
  {
    if account.owner.id != user.id then Fail(AccountError(ACCOUNT_OWNER_UN_MATCH))
    else if account.balance > 0 then Fail(AccountError(BALANCE_REMAIN))
    else if account.status == UNREGISTERED then Fail(AccountError(ACCOUNT_ALREADY_UNREGISTERED))
    else Pass
  }

  /** AccountService.unRegisterAccount */
  function UnRegisterAccount(st: State, userId: int, accountNumber: string, now: Instant): (r: Step<Account>)
    ensures r.result.Failure? ==> r.state == st && r.result.error.AccountError?
    ensures userId !in st.users ==> r.result == Failure(AccountError(USER_NOT_FOUND))
    ensures userId in st.users && FindAccount(st.accounts, accountNumber).None?
            ==> r.result == Failure(AccountError(ACCOUNT_NOT_FOUND))
    ensures userId in st.users && FindAccount(st.accounts, accountNumber).Some? ==>
      var i := FindAccount(st.accounts, accountNumber).value;
      var a := st.accounts[i];
      var owns := a.owner.id == st.users[userId].id;
      var empty := owns && a.balance <= 0;
      && (!owns ==> r.result == Failure(AccountError(ACCOUNT_OWNER_UN_MATCH)))
      && (owns && a.balance > 0 ==> r.result == Failure(AccountError(BALANCE_REMAIN)))
      && (empty && a.status == UNREGISTERED ==> r.result == Failure(AccountError(ACCOUNT_ALREADY_UNREGISTERED)))
      && (empty && a.status == IN_USE ==> r.result.Success?)
    ensures r.result.Success? ==>
      var i := FindAccount(st.accounts, accountNumber).value;
      var a := st.accounts[i];
      && a.balance <= 0 && a.status == IN_USE
      && r.result.value.status == UNREGISTERED && r.result.value.unRegisteredAt == Some(now)
      && r.result.value.(status := a.status, unRegisteredAt := a.unRegisteredAt) == a
      && r.state == st.(accounts := st.accounts[i := r.result.value])
  {
    match FindUser(st, userId)
    case None => Step(st, Failure(AccountError(USER_NOT_FOUND)))
    case Some(user) =>
      match FindAccount(st.accounts, accountNumber)
      case None => Step(st, Failure(AccountError(ACCOUNT_NOT_FOUND)))
      case Some(i) =>
        var account := st.accounts[i];
        match ValidateUnRegisterAccount(user, account)
        case Fail(e) => Step(st, Failure(e))
        case Pass =>
          var closed := AccountEntity.UnRegister(account, now);
          Step(st.(accounts := st.accounts[i := closed]), Success(closed))
  }

  /** AccountService.getAccount: a negative id is refused, a missing one fails on get(). */
  function GetAccount(st: State, id: int): (r: Result<Account>)
    ensures id < 0 ==> r == Failure(NegativeId)
    ensures id >= 0 ==> (r.Failure? <==> forall j :: 0 <= j < |st.accounts| ==> st.accounts[j].id != id)
    ensures id >= 0 && r.Failure? ==> r.error == NoSuchElement
    ensures r.Success? ==> r.value.id == id && r.value in st.accounts
  {
    if id < 0 then Failure(NegativeId)
    else match FindAccountById(st.accounts, id)
      case None => Failure(NoSuchElement)
      case Some(i) => Success(st.accounts[i])
  }
}

=== FILE: decimal.dfy ===
/**
 Java's 32-bit `int` as the account-number allocation uses it:
 `Integer.parseInt`, `Integer.toString` and wrap-around on `+ 1`.
 Only ASCII digits are modelled.
 */
module Decimal {
  import opened Types

  const INT_MIN: int := -0x8000_0000
  const INT_MAX: int := 0x7FFF_FFFF
  const TWO_POW_32: int := 0x1_0000_0000

  predicate IsInt32(n: int) {
    INT_MIN <= n <= INT_MAX
  }

  /** Two's complement reduction of a mathematical integer to 32 bits. */
  function WrapInt32(n: int): (r: int)
    ensures IsInt32(r)
    ensures IsInt32(n) ==> r == n
    ensures n == INT_MAX + 1 ==> r == INT_MIN
  {
    (n - INT_MIN) % TWO_POW_32 + INT_MIN
  }

  predicate IsDigit(c: char) {
    '0' <= c <= '9'
  }

  predicate AllDigits(s: string) {
    forall i :: 0 <= i < |s| ==> IsDigit(s[i])
  }

  function DigitChar(d: nat): (c: char)
    requires d < 10
    ensures IsDigit(c)
  {
    (('0' as int) + d) as char
  }

  function DigitValue(c: char): (d: nat)
    requires IsDigit(c)
    ensures d < 10 && DigitChar(d) == c
  {
    (c as int) - ('0' as int)
  }

  /** The shortest decimal spelling of a natural number ("0" for zero). */
  function DigitsOf(n: nat): (s: string)
    ensures |s| >= 1 && AllDigits(s)
    ensures s[0] == '0' <==> n == 0
    ensures n == 0 ==> s == "0"
  {
    if n < 10 then [DigitChar(n)] else DigitsOf(n / 10) + [DigitChar(n % 10)]
  }

  /** The value of a string of decimal digits, most significant first. */
  function ParseDigits(s: string): nat
    requires AllDigits(s)
  {
    if |s| == 0 then 0 else 10 * ParseDigits(s[..|s| - 1]) + DigitValue(s[|s| - 1])
  }

  /** Integer.toString */
  function ToDecimal(n: int): string {
    if n < 0 then "-" + DigitsOf(-n) else DigitsOf(n)
  }

  /** Decimal digits without a leading zero, unless the number is zero itself. */
  predicate CanonicalDigits(d: string) {
    |d| >= 1 && AllDigits(d) && (d[0] == '0' ==> |d| == 1)
  }

  /**
   The spelling Integer.toString produces: no '+', no leading zero, and a
   '-' only in front of a non-zero magnitude.
   */
  predicate Canonical(s: string) {
    if |s| > 0 && s[0] == '-' then CanonicalDigits(s[1..]) && s[1..] != "0" else CanonicalDigits(s)
  }

  /**
   Integer.parseInt: an optional sign, then at least one digit, and a value
   within the 32-bit range; anything else is a NumberFormatException (None).
   */
  function ParseInt(s: string): (r: Option<int>)
    ensures r.Some? ==> IsInt32(r.value)
    ensures |s| == 0 ==> r.None?
  {
    if |s| == 0 then None
    else
      var signed := s[0] == '-' || s[0] == '+';
      var digits := if signed then s[1..] else s;
      if |digits| == 0 || !AllDigits(digits) then None
      else
        var v: int := if s[0] == '-' then -(ParseDigits(digits) as int) else ParseDigits(digits);
        if IsInt32(v) then Some(v) else None
  }

  lemma {:induction false} ParseDigitsOf(n: nat)
    ensures ParseDigits(DigitsOf(n)) == n
  {
    if n >= 10 {
      var s := DigitsOf(n);
      assert s[..|s| - 1] == DigitsOf(n / 10);
      ParseDigitsOf(n / 10);
    }
  }

  /** Printing then parsing any 32-bit value gives it back. */
  lemma {:induction false} ParseToDecimal(n: int)
    requires IsInt32(n)
    ensures ParseInt(ToDecimal(n)) == Some(n)
  {
    var s := ToDecimal(n);
    if n < 0 {
      ParseDigitsOf(-n);
      assert s[1..] == DigitsOf(-n);
      assert IsDigit(DigitsOf(-n)[0]);
    } else {
      ParseDigitsOf(n);
      assert IsDigit(s[0]);
    }
  }

  /** Integer.toString always produces the canonical spelling. */
  lemma ToDecimalCanonical(n: int)
    ensures Canonical(ToDecimal(n))
  {
    if n < 0 {
      assert ToDecimal(n)[1..] == DigitsOf(-n);
    }
  }

  /** A canonical digit string is the spelling DigitsOf gives its value. */
  lemma {:induction false} DigitsOfParse(d: string)
    requires CanonicalDigits(d)
    ensures DigitsOf(ParseDigits(d)) == d
  {
    if |d| > 1 {
      var front := d[..|d| - 1];
      assert CanonicalDigits(front);
      DigitsOfParse(front);
      var p := ParseDigits(front);
      var v := DigitValue(d[|d| - 1]);
      assert p != 0;
      var n := 10 * p + v;
      assert n / 10 == p && n % 10 == v;
      assert d == front + [d[|d| - 1]];
    }
  }

  /**
   Exactly one canonical text spells each value: a canonical text that
   parses to `v` is the text Integer.toString prints for `v`.
   */
  lemma CanonicalUnique(s: string, v: int)
    requires Canonical(s) && ParseInt(s) == Some(v)
    ensures s == ToDecimal(v)
  {
    if s[0] == '-' {
      var digits := s[1..];
      DigitsOfParse(digits);
      assert ParseDigits(digits) != 0;
      assert s == "-" + digits;
    } else {
      DigitsOfParse(s);
    }
  }
}

=== FILE: dto.dfy ===
/**
 What crosses the service boundary: the TransactionDto projection of a
 ledger record, the use and cancel request bodies with their bean
 validation constraints, the cancel response, and the lock key a request
 exposes.
 */
module Dto {
  import opened Types

  datatype TransactionDto = TransactionDto(
    accountNumber: string,
    transactionType: TransactionType,
    transactionResultType: TransactionResultType,
    amount: int,
    balanceSnapshot: int,
    transactionId: string,
    transactedAt: Instant)

  /** TransactionDto.fromEntity: every field the DTO has is taken from the record. */
  function FromEntity(t: Transaction): (d: TransactionDto)
    ensures d.accountNumber == t.accountNumber
    ensures d.transactionType == t.transactionType && d.transactionResultType == t.transactionResultType
    ensures d.amount == t.amount && d.balanceSnapshot == t.balanceSnapshot
    ensures d.transactionId == t.transactionId && d.transactedAt == t.transactedAt
  {
    TransactionDto(t.accountNumber, t.transactionType, t.transactionResultType,
                   t.amount, t.balanceSnapshot, t.transactionId, t.transactedAt)
  }

  /** The projection loses only the account id: two records of one account agree iff their DTOs do. */
  lemma FromEntityInjective(t1: Transaction, t2: Transaction)
    requires t1.accountId == t2.accountId
    ensures FromEntity(t1) == FromEntity(t2) <==> t1 == t2
  {
  }

  const MIN_AMOUNT: int := 10
  const MAX_AMOUNT: int := 1_000_000_000
  const ACCOUNT_NUMBER_LENGTH: nat := 10
  const TRANSACTION_ID_LENGTH: nat := 32

  // Bean validation constraints; as in the standard, every constraint but
  // @NotNull and @NotBlank accepts a missing (null) value.

  predicate NotNull<T>(v: Option<T>) {
    v.Some?
  }

  /** @NotBlank: present, and not empty once characters up to U+0020 are trimmed. */
  predicate NotBlank(v: Option<string>) {
    v.Some? && exists i :: 0 <= i < |v.value| && v.value[i] > ' '
  }

  predicate Min(v: Option<int>, bound: int) {
    v.None? || v.value >= bound
  }

  predicate Max(v: Option<int>, bound: int) {
    v.None? || v.value <= bound
  }

  /** @Size(min = n, max = n) */
  predicate SizeExactly(v: Option<string>, n: nat) {
    v.None? || |v.value| == n
  }

  datatype UseRequest = UseRequest(userId: Option<int>, accountNumber: Option<string>, amount: Option<int>)

  datatype CancelRequest = CancelRequest(transactionId: Option<string>, accountNumber: Option<string>, amount: Option<int>)

  /** The constraints on UseBalance.Request. */
  predicate ValidUseRequest(r: UseRequest) {
    && NotNull(r.userId) && Min(r.userId, 1)
    && NotBlank(r.accountNumber) && SizeExactly(r.accountNumber, ACCOUNT_NUMBER_LENGTH)
    && NotNull(r.amount) && Min(r.amount, MIN_AMOUNT) && Max(r.amount, MAX_AMOUNT)
  }

  /** The constraints on CancelBalance.Request. */
  predicate ValidCancelRequest(r: CancelRequest) {
    && NotNull(r.transactionId) && SizeExactly(r.transactionId, TRANSACTION_ID_LENGTH)
    && NotBlank(r.accountNumber) && SizeExactly(r.accountNumber, ACCOUNT_NUMBER_LENGTH)
    && NotNull(r.amount) && Min(r.amount, MIN_AMOUNT) && Max(r.amount, MAX_AMOUNT)
  }

  /** What a valid use request guarantees about its fields. */
  lemma ValidUseRequestFields(r: UseRequest)
    ensures ValidUseRequest(r) <==>
      && r.userId.Some? && r.userId.value >= 1
      && r.accountNumber.Some? && |r.accountNumber.value| == 10
      && (exists i :: 0 <= i < 10 && r.accountNumber.value[i] > ' ')
      && r.amount.Some? && 10 <= r.amount.value <= 1_000_000_000
  {
  }

  /** What a valid cancel request guarantees about its fields. */
  lemma ValidCancelRequestFields(r: CancelRequest)
    ensures ValidCancelRequest(r) <==>
      && r.transactionId.Some? && |r.transactionId.value| == 32
      && r.accountNumber.Some? && |r.accountNumber.value| == 10
      && (exists i :: 0 <= i < 10 && r.accountNumber.value[i] > ' ')
      && r.amount.Some? && 10 <= r.amount.value <= 1_000_000_000
  {
  }

  /** An account number of ten spaces is present and has the right size, but is blank. */
  lemma BlankAccountNumberRefused(r: UseRequest)
    requires r.userId == Some(1) && r.amount == Some(100)
    requires r.accountNumber == Some("          ")
    ensures !ValidUseRequest(r)
  {
    var s := r.accountNumber.value;
    assert forall i :: 0 <= i < |s| ==> s[i] == ' ';
  }

  /** The requests that expose a lock key (AccountLockId). */
  datatype AccountLockId = UseLock(use: UseRequest) | CancelLock(cancel: CancelRequest)

  /** AccountLockId.getAccountNumber: the lock key is the request's account number. */
  function LockKey(r: AccountLockId): (k: Option<string>)
    ensures r.CancelLock? ==> k == r.cancel.accountNumber
    ensures r.UseLock? ==> k == r.use.accountNumber
  {
    match r
    case UseLock(u) => u.accountNumber
    case CancelLock(c) => c.accountNumber
  }

  datatype CancelResponse = CancelResponse(
    accountNumber: string,
    transactionResult: TransactionResultType,
    transactionId: string,
    amount: int,
    transactionAt: Instant)

  /** CancelBalance.Response.from */
  function CancelResponseFrom(d: TransactionDto): (r: CancelResponse)
    ensures r.accountNumber == d.accountNumber && r.transactionResult == d.transactionResultType
    ensures r.amount == d.amount && r.transactionAt == d.transactedAt && r.transactionId == d.transactionId
  {
    CancelResponse(d.accountNumber, d.transactionResultType, d.transactionId, d.amount, d.transactedAt)
  }

  /** A cancel response reports the record it was projected from. */
  lemma CancelResponseOfRecord(t: Transaction)
    ensures CancelResponseFrom(FromEntity(t))
         == CancelResponse(t.accountNumber, t.transactionResultType, t.transactionId, t.amount, t.transactedAt)
  {
  }
}

=== FILE: lock_aspect.dfy ===
/**
 The locking interceptor (LockAopAspect.aroundMethod) as an explicit
 decorator: lock the request's account number, run the wrapped operation
 only if the lock was granted, and unlock in every case. The calls it makes
 on the lock service are recorded as a trace of events.

 The lock service itself is not part of this model: whether `lock` grants
 the lock is a parameter, and `unlock` always returns normally.
 */
module LockAspect {
  import opened Types

  datatype LockEvent =
    | Lock(key: string, granted: bool)   // lockService.lock(key); refused means it threw
    | Proceed                            // pjp.proceed()
    | Unlock(key: string)                // lockService.unlock(key)

  /** A locked call's effect together with the lock-service calls it made. */
  datatype Locked<+T> = Locked(step: Step<T>, trace: seq<LockEvent>)

  function CountUnlocks(trace: seq<LockEvent>): (n: nat)
    ensures n <= |trace|
  {
    if |trace| == 0 then 0 else (if trace[0].Unlock? then 1 else 0) + CountUnlocks(trace[1..])
  }

  /**
   The shape of one intercepted call: lock(k), then proceed exactly when the
   lock was granted, then unlock(k).
   */
  predicate Bracketed(trace: seq<LockEvent>) {
    && |trace| >= 2
    && trace[0].Lock?
    && trace[|trace| - 1] == Unlock(trace[0].key)
    && (trace[0].granted ==> trace == [trace[0], Proceed, trace[|trace| - 1]])
    && (!trace[0].granted ==> |trace| == 2)
  }

  /**
   aroundMethod. `proceed` is the wrapped operation; when the lock is refused
   it is never run and the lock's ACCOUNT_TRANSACTION_LOCK is what propagates.
   Because lock is called inside the try, the finally's unlock runs either way.
   */
  function AroundMethod<T>(key: string, lockGranted: bool, st: State, proceed: State -> Step<T>): (r: Locked<T>)
    ensures Bracketed(r.trace) && r.trace[0] == Lock(key, lockGranted)
    ensures r.trace[|r.trace| - 1] == Unlock(key) && CountUnlocks(r.trace) == 1
    ensures (Proceed in r.trace) <==> lockGranted
    ensures lockGranted ==> r.step == proceed(st)
    ensures !lockGranted ==> r.step == Step(st, Failure(AccountError(ACCOUNT_TRANSACTION_LOCK)))
  {
    if lockGranted then
      var t := [Lock(key, true), Proceed, Unlock(key)];
      assert t[1..] == [Proceed, Unlock(key)] && t[1..][1..] == [Unlock(key)] && t[1..][1..][1..] == [];
      assert CountUnlocks(t[1..][1..]) == 1;
      Locked(proceed(st), t)
    else
      var t := [Lock(key, false), Unlock(key)];
      assert t[1..] == [Unlock(key)] && t[1..][1..] == [];
      Locked(Step(st, Failure(AccountError(ACCOUNT_TRANSACTION_LOCK))), t)
  }

  /** The lock keys held after a history, starting from `held`. */
  function HeldAfter(held: set<string>, history: seq<LockEvent>): set<string>
    decreases |history|
  {
    if |history| == 0 then held
    else
      var e := history[0];
      var next := if e.Lock? && e.granted then held + {e.key}
                  else if e.Unlock? then held - {e.key}
                  else held;
      HeldAfter(next, history[1..])
  }

  /** Every proceed sits between a granted lock and the unlock of the same key. */
  ghost predicate Guarded(history: seq<LockEvent>) {
    forall p :: 0 <= p < |history| && history[p] == Proceed ==>
      && 0 < p < |history| - 1
      && history[p - 1].Lock? && history[p - 1].granted
      && history[p + 1] == Unlock(history[p - 1].key)
  }

  /** The history of calls made one after another. */
  function Concat(traces: seq<seq<LockEvent>>): seq<LockEvent> {
    if |traces| == 0 then [] else traces[0] + Concat(traces[1..])
  }

  lemma {:induction false} HeldAfterConcat(held: set<string>, a: seq<LockEvent>, b: seq<LockEvent>)
    ensures HeldAfter(held, a + b) == HeldAfter(HeldAfter(held, a), b)
    decreases |a|
  {
    if |a| == 0 {
      assert a + b == b;
    } else {
      assert (a + b)[1..] == a[1..] + b;
      var e := a[0];
      var next := if e.Lock? && e.granted then held + {e.key}
                  else if e.Unlock? then held - {e.key}
                  else held;
      HeldAfterConcat(next, a[1..], b);
    }
  }

  lemma GuardedConcat(a: seq<LockEvent>, b: seq<LockEvent>)
    requires Guarded(a) && Guarded(b)
    ensures Guarded(a + b)
  {
    var h := a + b;
    forall p | 0 <= p < |h| && h[p] == Proceed
      ensures 0 < p < |h| - 1 && h[p - 1].Lock? && h[p - 1].granted && h[p + 1] == Unlock(h[p - 1].key)
    {
      if p < |a| {
        assert a[p] == Proceed;
      } else {
        assert b[p - |a|] == Proceed;
      }
    }
  }

  /** One intercepted call, started with no key held, ends with no key held. */
  lemma BracketedReleases(t: seq<LockEvent>)
    requires Bracketed(t)
    ensures HeldAfter({}, t) == {}
    ensures Guarded(t)
  {
    var k := t[0].key;
    var none: set<string> := {};
    if t[0].granted {
      var t1 := [Proceed, Unlock(k)];
      assert t[1..] == t1 && t1[1..] == [Unlock(k)] && t1[1..][1..] == [];
      assert none + {k} == {k} && {k} - {k} == none;
      assert HeldAfter({k}, t1[1..]) == HeldAfter(none, []);
      assert HeldAfter({k}, t1) == HeldAfter({k}, t1[1..]);
      assert HeldAfter(none, t) == HeldAfter({k}, t1);
      forall p | 0 <= p < |t| && t[p] == Proceed
        ensures p == 1
      {
      }
    } else {
      var t1 := [Unlock(k)];
      assert t[1..] == t1 && t1[1..] == [];
      assert none - {k} == none;
      assert HeldAfter(none, t1) == HeldAfter(none, []);
      assert HeldAfter(none, t) == HeldAfter(none, t1);
    }
  }

  /**
   Calls intercepted one after another leave no key held at the end, and
   each wrapped operation runs only while the lock on its own key is held.
   */
  lemma {:induction false} SerialCallsReleaseEveryLock(traces: seq<seq<LockEvent>>)
    requires forall i :: 0 <= i < |traces| ==> Bracketed(traces[i])
    ensures HeldAfter({}, Concat(traces)) == {}
    ensures Guarded(Concat(traces))
  {
    if |traces| > 0 {
      var t := traces[0];
      SerialCallsReleaseEveryLock(traces[1..]);
      HeldAfterConcat({}, t, Concat(traces[1..]));
      BracketedReleases(t);
      GuardedConcat(t, Concat(traces[1..]));
    }
  }
}

=== FILE: repository.dfy ===
/**
 The repository queries the services use, over the explicit state:
 lookup by key returns the first matching entry, counting is by owner.
 */
module Repository {
  import opened Types

  /** Index of the first element satisfying `p`, if any. */
  function FirstIndex<T>(s: seq<T>, p: T -> bool): (r: Option<nat>)
    ensures r.Some? ==> r.value < |s| && p(s[r.value])
    ensures r.Some? ==> forall j :: 0 <= j < r.value ==> !p(s[j])
    ensures r.None? <==> forall j :: 0 <= j < |s| ==> !p(s[j])
  {
    if |s| == 0 then None
    else if p(s[0]) then Some(0)
    else match FirstIndex(s[1..], p)
      case None => None
      case Some(k) => Some(k + 1)
  }

  /** accountUserRepository.findById */
  function FindUser(st: State, id: int): (r: Option<AccountUser>)
    ensures r.Some? <==> id in st.users
    ensures r.Some? ==> r.value == st.users[id]
  {
    if id in st.users then Some(st.users[id]) else None
  }

  /** accountRepository.findByAccountNumber, as a position in the account list. */
  function FindAccount(accounts: seq<Account>, accountNumber: string): (r: Option<nat>)
    ensures r.Some? ==> r.value < |accounts| && accounts[r.value].accountNumber == accountNumber
    ensures r.Some? ==> forall j :: 0 <= j < r.value ==> accounts[j].accountNumber != accountNumber
    ensures r.None? <==> forall j :: 0 <= j < |accounts| ==> accounts[j].accountNumber != accountNumber
  {
    FirstIndex(accounts, (a: Account) => a.accountNumber == accountNumber)
  }

  /** accountRepository.findById, as a position in the account list. */
  function FindAccountById(accounts: seq<Account>, id: int): (r: Option<nat>)
    ensures r.Some? ==> r.value < |accounts| && accounts[r.value].id == id
    ensures r.None? <==> forall j :: 0 <= j < |accounts| ==> accounts[j].id != id
  {
    FirstIndex(accounts, (a: Account) => a.id == id)
  }

  /** transactionRepository.findByTransactionId, as a position in the ledger. */
  function FindTransaction(ledger: seq<Transaction>, transactionId: string): (r: Option<nat>)
    ensures r.Some? ==> r.value < |ledger| && ledger[r.value].transactionId == transactionId
    ensures r.Some? ==> forall j :: 0 <= j < r.value ==> ledger[j].transactionId != transactionId
    ensures r.None? <==> forall j :: 0 <= j < |ledger| ==> ledger[j].transactionId != transactionId
  {
    FirstIndex(ledger, (t: Transaction) => t.transactionId == transactionId)
  }

  /** accountRepository.countByAccountUser: the accounts owned by the user with this id. */
  function CountOwned(accounts: seq<Account>, userId: int): (n: nat)
    ensures n <= |accounts|
    ensures n == 0 <==> forall j :: 0 <= j < |accounts| ==> accounts[j].owner.id != userId
  {
    if |accounts| == 0 then 0
    else
      var last := accounts[|accounts| - 1];
      CountOwned(accounts[..|accounts| - 1], userId) + (if last.owner.id == userId then 1 else 0)
  }

  /** Appending an account raises its owner's count by one and no one else's. */
  lemma {:induction false} CountOwnedAppend(accounts: seq<Account>, a: Account, userId: int)
    ensures CountOwned(accounts + [a], userId)
         == CountOwned(accounts, userId) + (if a.owner.id == userId then 1 else 0)
  {
    assert (accounts + [a])[..|accounts|] == accounts;
  }

  /** Replacing an account by one with the same owner leaves every count alone. */
  lemma {:induction false} CountOwnedUpdate(accounts: seq<Account>, i: nat, a: Account, userId: int)
    requires i < |accounts|
    requires a.owner == accounts[i].owner
    ensures CountOwned(accounts[i := a], userId) == CountOwned(accounts, userId)
    decreases |accounts|
  {
    var n := |accounts|;
    var updated := accounts[i := a];
    if i == n - 1 {
      assert updated[..n - 1] == accounts[..n - 1];
      assert updated[n - 1].owner == accounts[n - 1].owner;
    } else {
      assert updated[..n - 1] == accounts[..n - 1][i := a];
      CountOwnedUpdate(accounts[..n - 1], i, a, userId);
      assert updated[n - 1] == accounts[n - 1];
    }
  }

  /** Ids grow along the account list, as the database's id generator hands them out. */
  predicate IdsIncreasing(accounts: seq<Account>) {
    forall i, j :: 0 <= i < j < |accounts| ==> accounts[i].id < accounts[j].id
  }

  /** The greatest account id, or 0 when there are no accounts. */
  function MaxId(accounts: seq<Account>): (m: int)
    ensures forall j :: 0 <= j < |accounts| ==> accounts[j].id <= m
    ensures |accounts| > 0 ==> exists j :: 0 <= j < |accounts| && accounts[j].id == m
  {
    if |accounts| == 0 then 0
    else
      var front := accounts[..|accounts| - 1];
      var last := accounts[|accounts| - 1].id;
      var rest := MaxId(front);
      assert forall j :: 0 <= j < |front| ==> front[j] == accounts[j];
      if |front| == 0 || last >= rest then last else rest
  }

  /**
   accountRepository.findFirstByOrderByIdDesc: while ids grow along the list,
   the account with the greatest id is the last one.
   */
  lemma NewestHasGreatestId(accounts: seq<Account>)
    requires IdsIncreasing(accounts) && |accounts| > 0
    ensures MaxId(accounts) == accounts[|accounts| - 1].id
    ensures forall j :: 0 <= j < |accounts| - 1 ==> accounts[j].id < MaxId(accounts)
  {
    var j :| 0 <= j < |accounts| && accounts[j].id == MaxId(accounts);
  }
}

=== FILE: safety.dfy ===
/**
 What holds of every state the service can reach from an empty one through
 its state-changing entry points (the two balance endpoints, opening and
 closing accounts): no balance and no recorded snapshot is ever negative,
 no user owns more than ten accounts, account ids grow along the account
 list (so the newest account is the one with the greatest id), and history
 only grows: users stay, accounts keep their id, number and owner, and the
 ledger is append-only.

 Accounts are opened with the corrected createAccount, which refuses a
 negative initial balance; the one as written breaks the first invariant.
 */
module Safety {
  import opened Types
  import opened Repository
  import opened Dto
  import AccountService
  import TS = TransactionService
  import TC = TransactionController
  import Uuid

  /**
   One state-changing call, with everything it reads from outside the state.
   The id generator may skip ids: an opened account gets an id `idGap` past
   the one after the greatest id so far.
   */
  datatype Op =
    | UseOp(use: UseRequest, env: TC.Env)
    | CancelOp(cancel: CancelRequest, env: TC.Env)
    | OpenOp(userId: int, initialBalance: int, idGap: nat)
    | CloseOp(userId: int, accountNumber: string, now: Instant)

  /** The id the generator hands out next. */
  function NextId(accounts: seq<Account>, idGap: nat): (id: int)
    ensures forall j :: 0 <= j < |accounts| ==> accounts[j].id < id
  {
    MaxId(accounts) + 1 + idGap
  }

  function Apply(st: State, op: Op): State {
    match op
    case UseOp(req, env) => TC.UseEndpoint(st, req, env).step.state
    case CancelOp(req, env) => TC.CancelEndpoint(st, req, env).step.state
    case OpenOp(userId, initialBalance, idGap) =>
      AccountService.CreateAccountNonNegative(st, userId, initialBalance, NextId(st.accounts, idGap)).state
    case CloseOp(userId, accountNumber, now) => AccountService.UnRegisterAccount(st, userId, accountNumber, now).state
  }

  /** The calls applied one after another. */
  function Run(st: State, ops: seq<Op>): State
    decreases |ops|
  {
    if |ops| == 0 then st else Run(Apply(st, ops[0]), ops[1..])
  }

  ghost predicate NonNegativeBalances(st: State) {
    forall j :: 0 <= j < |st.accounts| ==> st.accounts[j].balance >= 0
  }

  ghost predicate NonNegativeSnapshots(st: State) {
    forall k :: 0 <= k < |st.ledger| ==> st.ledger[k].balanceSnapshot >= 0
  }

  ghost predicate WithinAccountLimit(st: State) {
    forall u :: CountOwned(st.accounts, u) <= AccountService.MAX_ACCOUNTS_PER_USER
  }

  /** The user table is keyed by each user's own id, as findById reads it. */
  ghost predicate KeyedById(users: map<int, AccountUser>) {
    forall k :: k in users ==> users[k].id == k
  }

  ghost predicate Safe(st: State) {
    && NonNegativeBalances(st) && NonNegativeSnapshots(st) && WithinAccountLimit(st)
    && IdsIncreasing(st.accounts) && KeyedById(st.users)
  }

  predicate SameIdentity(a: Account, b: Account) {
    a.id == b.id && a.accountNumber == b.accountNumber && a.owner == b.owner
  }

  /** `st'` is a later state of `st`: nothing recorded is lost or rewritten. */
  ghost predicate Extends(st: State, st': State) {
    && st'.users == st.users
    && |st.accounts| <= |st'.accounts|
    && (forall j :: 0 <= j < |st.accounts| ==> SameIdentity(st.accounts[j], st'.accounts[j]))
    && |st.ledger| <= |st'.ledger|
    && st'.ledger[..|st.ledger|] == st.ledger
  }

  lemma ExtendsTransitive(s1: State, s2: State, s3: State)
    requires Extends(s1, s2) && Extends(s2, s3)
    ensures Extends(s1, s3)
  {
    assert s3.ledger[..|s1.ledger|] == s3.ledger[..|s2.ledger|][..|s1.ledger|];
  }

  /** Replacing one account by another with the same identity and a non-negative balance. */
  lemma UpdateKeepsSafe(st: State, st': State, i: nat, a: Account)
    requires Safe(st) && i < |st.accounts|
    requires SameIdentity(st.accounts[i], a) && a.balance >= 0
    requires st'.users == st.users && st'.accounts == st.accounts[i := a]
    requires |st.ledger| <= |st'.ledger| && st'.ledger[..|st.ledger|] == st.ledger
    requires forall k :: |st.ledger| <= k < |st'.ledger| ==> st'.ledger[k].balanceSnapshot >= 0
    ensures Safe(st') && Extends(st, st')
  {
    forall u
      ensures CountOwned(st'.accounts, u) <= AccountService.MAX_ACCOUNTS_PER_USER
    {
      CountOwnedUpdate(st.accounts, i, a, u);
    }
    forall k | 0 <= k < |st.ledger|
      ensures st'.ledger[k].balanceSnapshot >= 0
    {
      assert st'.ledger[k] == st'.ledger[..|st.ledger|][k];
    }
  }

  /** Only the ledger grew, by records whose snapshots are not negative. */
  lemma AppendKeepsSafe(st: State, st': State)
    requires Safe(st)
    requires st'.users == st.users && st'.accounts == st.accounts
    requires |st.ledger| <= |st'.ledger| && st'.ledger[..|st.ledger|] == st.ledger
    requires forall k :: |st.ledger| <= k < |st'.ledger| ==> st'.ledger[k].balanceSnapshot >= 0
    ensures Safe(st') && Extends(st, st')
  {
    forall k | 0 <= k < |st.ledger|
      ensures st'.ledger[k].balanceSnapshot >= 0
    {
      assert st'.ledger[k] == st'.ledger[..|st.ledger|][k];
    }
  }

  /** A committed debit or credit that leaves its account non-negative keeps the invariants. */
  lemma CommittedKeepsSafe(st: State, st': State, i: nat, delta: int, transactionType: TransactionType,
                           amount: int, now: Instant, uuid: Uuid.Uuid, dto: TransactionDto)
    requires Safe(st) && i < |st.accounts| && st.accounts[i].balance + delta >= 0
    requires TS.Committed(st, st', i, delta, transactionType, amount, now, uuid, dto)
    ensures Safe(st') && Extends(st, st')
  {
    var a := st.accounts[i];
    assert st'.ledger[..|st.ledger|] == st.ledger;
    UpdateKeepsSafe(st, st', i, a.(balance := a.balance + delta));
  }

  /** A FAIL record (or nothing) written after a refused request keeps the invariants. */
  lemma FailureRecordKeepsSafe(st: State, r: Step<()>, accountNumber: string)
    requires Safe(st)
    requires r.state.users == st.users && r.state.accounts == st.accounts
    requires r.result.Failure? ==> r.state == st
    requires r.result.Success? ==>
      && FindAccount(st.accounts, accountNumber).Some?
      && |r.state.ledger| == |st.ledger| + 1 && r.state.ledger[..|st.ledger|] == st.ledger
      && r.state.ledger[|st.ledger|].balanceSnapshot == st.accounts[FindAccount(st.accounts, accountNumber).value].balance
    ensures Safe(r.state) && Extends(st, r.state)
  {
    if r.result.Success? {
      AppendKeepsSafe(st, r.state);
    }
  }

  lemma UseServedKeepsSafe(st: State, req: UseRequest, env: TC.Env)
    requires Safe(st) && ValidUseRequest(req)
    requires env.lockGranted
    requires TS.UseBalance(st, req.userId.value, req.accountNumber.value, req.amount.value, env.now, env.uuid).result.Success?
    ensures Safe(TC.UseEndpoint(st, req, env).step.state) && Extends(st, TC.UseEndpoint(st, req, env).step.state)
  {
    var number := req.accountNumber.value;
    var amount := req.amount.value;
    var call := TS.UseBalance(st, req.userId.value, number, amount, env.now, env.uuid);
    assert TC.UseEndpoint(st, req, env).step.state == call.state;
    TS.UseSuccessCommits(st, req.userId.value, number, amount, env.now, env.uuid);
    var i := FindAccount(st.accounts, number).value;
    CommittedKeepsSafe(st, call.state, i, -amount, USE, amount, env.now, env.uuid, call.result.value);
  }

  lemma UseKeepsSafe(st: State, req: UseRequest, env: TC.Env)
    requires Safe(st)
    ensures Safe(Apply(st, UseOp(req, env))) && Extends(st, Apply(st, UseOp(req, env)))
  {
    var st' := Apply(st, UseOp(req, env));
    if ValidUseRequest(req) {
      var number := req.accountNumber.value;
      var amount := req.amount.value;
      var call := TS.UseBalance(st, req.userId.value, number, amount, env.now, env.uuid);
      var served := TC.Served(st, env.lockGranted, call);
      var failed := TS.SaveFailedUseTransaction(st, number, amount, env.now, env.uuid);
      if served.result.Success? {
        UseServedKeepsSafe(st, req, env);
      } else {
        assert st' == failed.state;
        FailureRecordKeepsSafe(st, failed, number);
      }
    } else {
      assert st' == st;
    }
  }

  lemma CancelServedKeepsSafe(st: State, req: CancelRequest, env: TC.Env)
    requires Safe(st) && ValidCancelRequest(req)
    requires env.lockGranted
    requires TS.CancelBalance(st, req.transactionId.value, req.accountNumber.value, req.amount.value,
                              env.now, env.yearLater, env.uuid).result.Success?
    ensures Safe(TC.CancelEndpoint(st, req, env).step.state) && Extends(st, TC.CancelEndpoint(st, req, env).step.state)
  {
    var number := req.accountNumber.value;
    var amount := req.amount.value;
    var call := TS.CancelBalance(st, req.transactionId.value, number, amount, env.now, env.yearLater, env.uuid);
    assert TC.CancelEndpoint(st, req, env).step.state == call.state;
    TS.CancelSuccessCommits(st, req.transactionId.value, number, amount, env.now, env.yearLater, env.uuid);
    var i := FindAccount(st.accounts, number).value;
    CommittedKeepsSafe(st, call.state, i, amount, CANCEL, amount, env.now, env.uuid, call.result.value);
  }

  lemma CancelRefusedKeepsSafe(st: State, req: CancelRequest, env: TC.Env)
    requires Safe(st) && ValidCancelRequest(req)
    requires TC.Served(st, env.lockGranted,
                       TS.CancelBalance(st, req.transactionId.value, req.accountNumber.value, req.amount.value,
                                        env.now, env.yearLater, env.uuid)).result.Failure?
    ensures Safe(TC.CancelEndpoint(st, req, env).step.state) && Extends(st, TC.CancelEndpoint(st, req, env).step.state)
  {
    var failed := TS.SaveFailedCancelTransaction(st, req.accountNumber.value, req.amount.value, env.now, env.uuid);
    FailureRecordKeepsSafe(st, failed, req.accountNumber.value);
    assert TC.CancelEndpoint(st, req, env).step.state == failed.state;
  }

  lemma CancelKeepsSafe(st: State, req: CancelRequest, env: TC.Env)
    requires Safe(st)
    ensures Safe(Apply(st, CancelOp(req, env))) && Extends(st, Apply(st, CancelOp(req, env)))
  {
    var st' := Apply(st, CancelOp(req, env));
    if ValidCancelRequest(req) {
      var number := req.accountNumber.value;
      var amount := req.amount.value;
      var call := TS.CancelBalance(st, req.transactionId.value, number, amount, env.now, env.yearLater, env.uuid);
      var served := TC.Served(st, env.lockGranted, call);
      if served.result.Success? {
        CancelServedKeepsSafe(st, req, env);
      } else {
        CancelRefusedKeepsSafe(st, req, env);
      }
    } else {
      assert st' == st;
    }
  }

  /**
   Appending a non-negative account, with an id above every existing one,
   for a user below the limit keeps the invariants.
   */
  lemma AppendAccountKeepsSafe(st: State, st': State, a: Account)
    requires Safe(st) && a.balance >= 0
    requires forall j :: 0 <= j < |st.accounts| ==> st.accounts[j].id < a.id
    requires CountOwned(st.accounts, a.owner.id) < AccountService.MAX_ACCOUNTS_PER_USER
    requires st' == st.(accounts := st.accounts + [a])
    ensures Safe(st') && Extends(st, st')
  {
    forall u
      ensures CountOwned(st'.accounts, u) <= AccountService.MAX_ACCOUNTS_PER_USER
    {
      CountOwnedAppend(st.accounts, a, u);
    }
    assert st'.ledger[..|st.ledger|] == st.ledger;
  }

  lemma OpenedAccountKeepsSafe(st: State, userId: int, initialBalance: int, newId: int)
    requires Safe(st) && initialBalance >= 0
    requires forall j :: 0 <= j < |st.accounts| ==> st.accounts[j].id < newId
    requires AccountService.CreateAccount(st, userId, initialBalance, newId).result.Success?
    ensures Safe(AccountService.CreateAccount(st, userId, initialBalance, newId).state)
    ensures Extends(st, AccountService.CreateAccount(st, userId, initialBalance, newId).state)
  {
    var r := AccountService.CreateAccount(st, userId, initialBalance, newId);
    var a := r.result.value;
    assert a.id == newId && a.balance >= 0;
    assert CountOwned(r.state.accounts, a.owner.id) == CountOwned(st.accounts, a.owner.id) + 1;
    AppendAccountKeepsSafe(st, r.state, a);
  }

  lemma OpenKeepsSafe(st: State, userId: int, initialBalance: int, idGap: nat)
    requires Safe(st)
    ensures Safe(Apply(st, OpenOp(userId, initialBalance, idGap)))
    ensures Extends(st, Apply(st, OpenOp(userId, initialBalance, idGap)))
  {
    var newId := NextId(st.accounts, idGap);
    var r := AccountService.CreateAccountNonNegative(st, userId, initialBalance, newId);
    if r.result.Success? {
      OpenedAccountKeepsSafe(st, userId, initialBalance, newId);
    }
  }

  lemma CloseKeepsSafe(st: State, userId: int, accountNumber: string, now: Instant)
    requires Safe(st)
    ensures Safe(Apply(st, CloseOp(userId, accountNumber, now)))
    ensures Extends(st, Apply(st, CloseOp(userId, accountNumber, now)))
  {
    var r := AccountService.UnRegisterAccount(st, userId, accountNumber, now);
    if r.result.Success? {
      var i := FindAccount(st.accounts, accountNumber).value;
      UpdateKeepsSafe(st, r.state, i, r.result.value);
    }
  }

  lemma ApplyKeepsSafe(st: State, op: Op)
    requires Safe(st)
    ensures Safe(Apply(st, op)) && Extends(st, Apply(st, op))
  {
    match op
    case UseOp(req, env) => UseKeepsSafe(st, req, env);
    case CancelOp(req, env) => CancelKeepsSafe(st, req, env);
    case OpenOp(userId, initialBalance, idGap) => OpenKeepsSafe(st, userId, initialBalance, idGap);
    case CloseOp(userId, accountNumber, now) => CloseKeepsSafe(st, userId, accountNumber, now);
  }

  lemma ExtendsReflexive(st: State)
    ensures Extends(st, st)
  {
  }

  /**
   Every state reached from a safe one is safe and extends it: balances and
   snapshots stay non-negative, the ten-account limit holds, and nothing
   recorded is lost.
   */
  lemma {:induction false} RunKeepsSafe(st: State, ops: seq<Op>)
    requires Safe(st)
    ensures Safe(Run(st, ops)) && Extends(st, Run(st, ops))
    decreases |ops|
  {
    if |ops| == 0 {
      ExtendsReflexive(st);
    } else {
      var next := Apply(st, ops[0]);
      ApplyKeepsSafe(st, ops[0]);
      RunKeepsSafe(next, ops[1..]);
      ExtendsTransitive(st, next, Run(next, ops[1..]));
    }
  }

  /** A service that starts with users keyed by id and no accounts starts safe. */
  lemma EmptyIsSafe(users: map<int, AccountUser>)
    requires KeyedById(users)
    ensures Safe(State(users, [], []))
  {
    forall u
      ensures CountOwned([], u) <= AccountService.MAX_ACCOUNTS_PER_USER
    {
    }
  }

  /** In a safe state an account is only ever closed at a balance of exactly zero. */
  lemma CloseOnlyEmpty(st: State, userId: int, accountNumber: string, now: Instant)
    requires Safe(st)
    requires AccountService.UnRegisterAccount(st, userId, accountNumber, now).result.Success?
    ensures AccountService.UnRegisterAccount(st, userId, accountNumber, now).result.value.balance == 0
  {
  }

  /** Everything reachable from a fresh start is safe. */
  lemma ReachableIsSafe(users: map<int, AccountUser>, ops: seq<Op>)
    requires KeyedById(users)
    ensures Safe(Run(State(users, [], []), ops))
  {
    EmptyIsSafe(users);
    RunKeepsSafe(State(users, [], []), ops);
  }

  /**
   In every reachable state the last account, which createAccountNumber
   numbers from, is the one with the greatest id, as findFirstByOrderByIdDesc
   reads it.
   */
  lemma ReachableNewestIsLast(users: map<int, AccountUser>, ops: seq<Op>)
    requires KeyedById(users)
    requires |Run(State(users, [], []), ops).accounts| > 0
    ensures
      var accounts := Run(State(users, [], []), ops).accounts;
      && accounts[|accounts| - 1].id == MaxId(accounts)
      && forall j :: 0 <= j < |accounts| - 1 ==> accounts[j].id < accounts[|accounts| - 1].id
  {
    ReachableIsSafe(users, ops);
    NewestHasGreatestId(Run(State(users, [], []), ops).accounts);
  }
}

=== FILE: transaction_controller.dfy ===
/**
 The two balance endpoints with their compensation: the request body is
 validated, the service call runs under the account-number lock, and when
 it throws an AccountException a FAIL record is written before the same
 exception is thrown on to the caller.

 The controller's environment (the clock, the UUID of the next record and
 the lock service's answer) is one `Env` value per request.
 */
module TransactionController {
  import opened Types
  import opened Repository
  import opened Dto
  import opened LockAspect
  import Uuid
  import TS = TransactionService
  import TransactionLemmas

  datatype Env = Env(now: Instant, yearLater: Instant -> Instant, uuid: Uuid.Uuid, lockGranted: bool)

  /**
   The catch block: an AccountException makes `saveFailed` run on the state
   the failed call left, and is then thrown again. When `saveFailed` throws,
   its exception is the one that reaches the caller. Any other exception,
   and a success, pass through untouched.
   */
  function Compensate<T>(l: Locked<T>, saveFailed: State -> Step<()>): (r: Locked<T>)
    ensures r.trace == l.trace
    ensures !l.step.result.Failure? || !l.step.result.error.AccountError? ==> r.step == l.step
    ensures l.step.result.Failure? && l.step.result.error.AccountError? ==>
      var f := saveFailed(l.step.state);
      && r.step.state == f.state
      && (f.result.Success? ==> r.step.result == l.step.result)
      && (f.result.Failure? ==> r.step.result == Failure(f.result.error))
  {
    match l.step.result
    case Failure(AccountError(_)) =>
      var f := saveFailed(l.step.state);
      var thrown := if f.result.Failure? then Failure(f.result.error) else l.step.result;
      Locked(Step(f.state, thrown), l.trace)
    case _ => l
  }

  /** The effect of the locked service call: the call itself, or the lock's refusal. */
  function Served<T>(st: State, lockGranted: bool, call: Step<T>): Step<T> {
    if lockGranted then call else Step(st, Failure(AccountError(ACCOUNT_TRANSACTION_LOCK)))
  }

  /** POST /transaction/use */
  function UseEndpoint(st: State, req: UseRequest, env: Env): (r: Locked<TransactionDto>)
    ensures !ValidUseRequest(req) ==> r == Locked(Step(st, Failure(RequestNotValid)), [])
    ensures ValidUseRequest(req) ==> Bracketed(r.trace) && r.trace[0] == Lock(req.accountNumber.value, env.lockGranted)
    ensures ValidUseRequest(req) ==>
      var number := req.accountNumber.value;
      var amount := req.amount.value;
      var served := Served(st, env.lockGranted,
                           TS.UseBalance(st, req.userId.value, number, amount, env.now, env.uuid));
      var failed := TS.SaveFailedUseTransaction(st, number, amount, env.now, env.uuid);
      && (served.result.Success? ==> r.step == served)
      && (served.result.Failure? && failed.result.Success? ==> r.step == Step(failed.state, served.result))
      && (served.result.Failure? && failed.result.Failure? ==> r.step == Step(st, Failure(failed.result.error)))
  {
    if !ValidUseRequest(req) then Locked(Step(st, Failure(RequestNotValid)), [])
    else
      var number := req.accountNumber.value;
      var amount := req.amount.value;
      var key := LockKey(UseLock(req)).value;
      var locked := AroundMethod(key, env.lockGranted, st,
                                 (s: State) => TS.UseBalance(s, req.userId.value, number, amount, env.now, env.uuid));
      Compensate(locked, (s: State) => TS.SaveFailedUseTransaction(s, number, amount, env.now, env.uuid))
  }

  /** The cancel response of a successful cancel, or the exception unchanged. */
  function Respond(s: Step<TransactionDto>): (r: Step<CancelResponse>)
    ensures r.state == s.state && r.result.Success? == s.result.Success?
    ensures s.result.Success? ==> r.result.value == CancelResponseFrom(s.result.value)
    ensures s.result.Failure? ==> r.result.error == s.result.error
  {
    match s.result
    case Success(d) => Step(s.state, Success(CancelResponseFrom(d)))
    case Failure(e) => Step(s.state, Failure(e))
  }

  /** POST /transaction/cancel */
  function CancelEndpoint(st: State, req: CancelRequest, env: Env): (r: Locked<CancelResponse>)
    ensures !ValidCancelRequest(req) ==> r == Locked(Step(st, Failure(RequestNotValid)), [])
    ensures ValidCancelRequest(req) ==> Bracketed(r.trace) && r.trace[0] == Lock(req.accountNumber.value, env.lockGranted)
    ensures ValidCancelRequest(req) ==>
      var number := req.accountNumber.value;
      var amount := req.amount.value;
      var served := Served(st, env.lockGranted,
                           TS.CancelBalance(st, req.transactionId.value, number, amount, env.now, env.yearLater, env.uuid));
      var failed := TS.SaveFailedCancelTransaction(st, number, amount, env.now, env.uuid);
      && (served.result.Success? ==> r.step == Respond(served))
      && (served.result.Failure? && failed.result.Success? ==> r.step == Step(failed.state, Failure(served.result.error)))
      && (served.result.Failure? && failed.result.Failure? ==> r.step == Step(st, Failure(failed.result.error)))
  {
    if !ValidCancelRequest(req) then Locked(Step(st, Failure(RequestNotValid)), [])
    else
      var number := req.accountNumber.value;
      var amount := req.amount.value;
      var key := LockKey(CancelLock(req)).value;
      var locked := AroundMethod(key, env.lockGranted, st,
                                 (s: State) => TS.CancelBalance(s, req.transactionId.value, number, amount,
                                                                env.now, env.yearLater, env.uuid));
      // CancelBalance.Response.from cannot throw, so building it after the catch changes nothing
      var handled := Compensate(locked, (s: State) => TS.SaveFailedCancelTransaction(s, number, amount, env.now, env.uuid));
      Locked(Respond(handled.step), handled.trace)
  }

  /**
   A valid use request on an existing account leaves exactly one new
   ledger record: S when the debit went through, F when it was refused.
   A refused request moves no balance and reaches the caller as the
   service's own AccountException.
   */
  lemma UseWritesExactlyOneRecord(st: State, req: UseRequest, env: Env)
    requires ValidUseRequest(req) && FindAccount(st.accounts, req.accountNumber.value).Some?
    ensures
      var r := UseEndpoint(st, req, env).step;
      && |r.state.ledger| == |st.ledger| + 1 && r.state.ledger[..|st.ledger|] == st.ledger
      && var last := r.state.ledger[|st.ledger|];
      && last.transactionType == USE && last.amount == req.amount.value
      && last.accountNumber == req.accountNumber.value
      && (last.transactionResultType == S <==> r.result.Success?)
      && (r.result.Failure? ==> r.state.accounts == st.accounts && r.result.error.AccountError?)
      && (r.result.Failure? ==> last.balanceSnapshot == st.accounts[FindAccount(st.accounts, req.accountNumber.value).value].balance)
  {
    var number := req.accountNumber.value;
    var r := UseEndpoint(st, req, env).step;
    var served := Served(st, env.lockGranted,
                         TS.UseBalance(st, req.userId.value, number, req.amount.value, env.now, env.uuid));
    if served.result.Success? {
      assert r.state.ledger[..|st.ledger|] == st.ledger;
    }
  }

  /** The same for a valid cancel request: one S or F record of type CANCEL. */
  lemma CancelWritesExactlyOneRecord(st: State, req: CancelRequest, env: Env)
    requires ValidCancelRequest(req) && FindAccount(st.accounts, req.accountNumber.value).Some?
    ensures
      var r := CancelEndpoint(st, req, env).step;
      && |r.state.ledger| == |st.ledger| + 1 && r.state.ledger[..|st.ledger|] == st.ledger
      && var last := r.state.ledger[|st.ledger|];
      && last.transactionType == CANCEL && last.amount == req.amount.value
      && last.accountNumber == req.accountNumber.value
      && (last.transactionResultType == S <==> r.result.Success?)
      && (r.result.Failure? ==> r.state.accounts == st.accounts && r.result.error.AccountError?)
  {
    var number := req.accountNumber.value;
    var amount := req.amount.value;
    var r := CancelEndpoint(st, req, env).step;
    var call := TS.CancelBalance(st, req.transactionId.value, number, amount, env.now, env.yearLater, env.uuid);
    var served := Served(st, env.lockGranted, call);
    var failed := TS.SaveFailedCancelTransaction(st, number, amount, env.now, env.uuid);
    if served.result.Success? {
      assert env.lockGranted && served == call;
      TS.CancelSuccessCommits(st, req.transactionId.value, number, amount, env.now, env.yearLater, env.uuid);
      assert r == Respond(call);
      assert r.state.ledger[..|st.ledger|] == st.ledger;
    } else {
      assert served.state == st;
      assert failed.result.Success?;
      assert r == Step(failed.state, Failure(served.result.error));
    }
  }

  /**
   When the account number names no account, the caller is told
   ACCOUNT_NOT_FOUND whatever failed first (an unknown user, or a refused
   lock, since the lock sits inside the try): the FAIL record cannot be
   written, and that exception replaces the first. Nothing is written.
   */
  lemma MissingAccountSurfacesAsNotFound(st: State, req: UseRequest, env: Env)
    requires ValidUseRequest(req) && FindAccount(st.accounts, req.accountNumber.value).None?
    ensures UseEndpoint(st, req, env).step == Step(st, Failure(AccountError(ACCOUNT_NOT_FOUND)))
  {
    var number := req.accountNumber.value;
    var call := TS.UseBalance(st, req.userId.value, number, req.amount.value, env.now, env.uuid);
    assert Served(st, env.lockGranted, call).result.Failure?;
  }

  /** The same for a cancel request naming no account. */
  lemma MissingAccountCancelSurfacesAsNotFound(st: State, req: CancelRequest, env: Env)
    requires ValidCancelRequest(req) && FindAccount(st.accounts, req.accountNumber.value).None?
    ensures CancelEndpoint(st, req, env).step == Step(st, Failure(AccountError(ACCOUNT_NOT_FOUND)))
  {
    var number := req.accountNumber.value;
    var call := TS.CancelBalance(st, req.transactionId.value, number, req.amount.value,
                                 env.now, env.yearLater, env.uuid);
    assert Served(st, env.lockGranted, call).result.Failure?;
  }

  /**
   A refused lock means the service is never entered: no balance moves,
   and on an existing account the caller gets ACCOUNT_TRANSACTION_LOCK
   after an F record is written.
   */
  lemma RefusedLockMovesNothing(st: State, req: UseRequest, env: Env)
    requires ValidUseRequest(req) && !env.lockGranted
    ensures UseEndpoint(st, req, env).step.state.accounts == st.accounts
    ensures Proceed !in UseEndpoint(st, req, env).trace
    ensures FindAccount(st.accounts, req.accountNumber.value).Some? ==>
      UseEndpoint(st, req, env).step.result == Failure(AccountError(ACCOUNT_TRANSACTION_LOCK))
    ensures FindAccount(st.accounts, req.accountNumber.value).Some? ==>
      var ledger := UseEndpoint(st, req, env).step.state.ledger;
      && |ledger| == |st.ledger| + 1
      && ledger[|st.ledger|].transactionResultType == F
  {
  }

  /** A debit that succeeds takes at least MIN_AMOUNT from exactly the requested account. */
  lemma UseSuccessDebits(st: State, req: UseRequest, env: Env)
    requires UseEndpoint(st, req, env).step.result.Success?
    ensures ValidUseRequest(req) && FindAccount(st.accounts, req.accountNumber.value).Some?
    ensures
      var i := FindAccount(st.accounts, req.accountNumber.value).value;
      var after := UseEndpoint(st, req, env).step.state.accounts;
      && |after| == |st.accounts|
      && after[i].balance == st.accounts[i].balance - req.amount.value
      && after[i].balance <= st.accounts[i].balance - MIN_AMOUNT
      && forall j :: 0 <= j < |after| && j != i ==> after[j] == st.accounts[j]
  {
  }

  /** cancelBalance raises INVALID_REQUEST only for a negative amount. */
  lemma CancelServiceSignCheck(st: State, transactionId: string, accountNumber: string, amount: int,
                               now: Instant, yearLater: Instant -> Instant, uuid: Uuid.Uuid)
    requires amount >= 0
    ensures TS.CancelBalance(st, transactionId, accountNumber, amount, now, yearLater, uuid).result
         != Failure(AccountError(INVALID_REQUEST))
  {
  }

  /** A request that passed validation carries a positive amount, so cancel's sign check never fires. */
  lemma CancelNeverInvalidRequest(st: State, req: CancelRequest, env: Env)
    requires ValidCancelRequest(req)
    ensures CancelEndpoint(st, req, env).step.result != Failure(AccountError(INVALID_REQUEST))
  {
    var number := req.accountNumber.value;
    var amount := req.amount.value;
    CancelServiceSignCheck(st, req.transactionId.value, number, amount, env.now, env.yearLater, env.uuid);
    var call := TS.CancelBalance(st, req.transactionId.value, number, amount, env.now, env.yearLater, env.uuid);
    var served := Served(st, env.lockGranted, call);
    var failed := TS.SaveFailedCancelTransaction(st, number, amount, env.now, env.uuid);
    assert served.result != Failure(AccountError(INVALID_REQUEST));
    if served.result.Failure? && failed.result.Failure? {
      assert failed.result.error == AccountError(ACCOUNT_NOT_FOUND);
    }
  }

  /** The identifier a debit reports is one a cancel request may carry. */
  lemma UseResponseIsCancellable(st: State, req: UseRequest, env: Env)
    requires UseEndpoint(st, req, env).step.result.Success?
    ensures ValidUseRequest(req)
    ensures ValidCancelRequest(CancelRequest(Some(UseEndpoint(st, req, env).step.result.value.transactionId),
                                             req.accountNumber, req.amount))
  {
  }

  /**
   Through the endpoints: a successful debit, then a cancel request that
   quotes the reported identifier with the same account and amount, made
   within the year under a granted lock, succeeds and leaves every account
   as it was before the debit; the ledger keeps both records.
   */
  lemma UseThenCancelRestoresAccounts(st: State, req: UseRequest, env1: Env, env2: Env)
    requires UseEndpoint(st, req, env1).step.result.Success?
    requires FindTransaction(st.ledger, Uuid.NewTransactionId(env1.uuid)).None?
    requires env2.lockGranted && env2.now <= env2.yearLater(env1.now)
    ensures
      var used := UseEndpoint(st, req, env1).step;
      var cancel := CancelRequest(Some(used.result.value.transactionId), req.accountNumber, req.amount);
      var cancelled := CancelEndpoint(used.state, cancel, env2).step;
      && cancelled.result.Success?
      && cancelled.state.accounts == st.accounts
      && |cancelled.state.ledger| == |st.ledger| + 2
      && cancelled.state.ledger[..|st.ledger|] == st.ledger
  {
    var used := UseEndpoint(st, req, env1).step;
    UseResponseIsCancellable(st, req, env1);
    var number := req.accountNumber.value;
    var amount := req.amount.value;
    var call := TS.UseBalance(st, req.userId.value, number, amount, env1.now, env1.uuid);
    assert env1.lockGranted && used == call;
    TransactionLemmas.UseThenCancelRestoresBalance(st, req.userId.value, number, amount,
                                                   env1.now, env2.now, env2.yearLater, env1.uuid, env2.uuid);
    var cancel := CancelRequest(Some(used.result.value.transactionId), req.accountNumber, req.amount);
    var inner := TS.CancelBalance(used.state, used.result.value.transactionId, number, amount,
                                  env2.now, env2.yearLater, env2.uuid);
    assert inner.result.Success?;
    assert CancelEndpoint(used.state, cancel, env2).step == Respond(inner);
  }
}

=== FILE: transaction_lemmas.dfy ===
/**
 Properties of the balance transaction engine that relate several calls:
 a cancel undoes a debit, the same record can be cancelled again, the kind
 of the referenced record is never looked at, and a committed record can
 be read back by its identifier.
 */
module TransactionLemmas {
  import opened Types
  import opened Repository
  import Dto
  import Uuid
  import TS = TransactionService

  /** Lookup by number does not see an update that keeps every account's number. */
  lemma FindAccountSameNumbers(a1: seq<Account>, a2: seq<Account>, accountNumber: string)
    requires |a1| == |a2|
    requires forall j :: 0 <= j < |a1| ==> a1[j].accountNumber == a2[j].accountNumber
    ensures FindAccount(a1, accountNumber) == FindAccount(a2, accountNumber)
  {
  }

  /** Lookup by identifier does not see a change that keeps every record's identifier. */
  lemma FindTransactionSameIds(l1: seq<Transaction>, l2: seq<Transaction>, transactionId: string)
    requires |l1| == |l2|
    requires forall j :: 0 <= j < |l1| ==> l1[j].transactionId == l2[j].transactionId
    ensures FindTransaction(l1, transactionId) == FindTransaction(l2, transactionId)
  {
  }

  /** Appending a record does not move the first match of an identifier already present. */
  lemma FindTransactionAppendFound(ledger: seq<Transaction>, t: Transaction, transactionId: string)
    requires FindTransaction(ledger, transactionId).Some?
    ensures FindTransaction(ledger + [t], transactionId) == FindTransaction(ledger, transactionId)
  {
    var k := FindTransaction(ledger, transactionId).value;
    assert (ledger + [t])[k].transactionId == transactionId;
  }

  /** A fresh identifier, once appended, is found at the new last position. */
  lemma FindTransactionAppendFresh(ledger: seq<Transaction>, t: Transaction)
    requires FindTransaction(ledger, t.transactionId).None?
    ensures FindTransaction(ledger + [t], t.transactionId) == Some(|ledger|)
  {
    var l := ledger + [t];
    assert l[|ledger|].transactionId == t.transactionId;
    forall j | 0 <= j < |ledger|
      ensures l[j].transactionId != t.transactionId
    {
      assert l[j] == ledger[j];
    }
  }

  /**
   Cancelling, within the year and with the debited amount, the record a
   successful debit has just written gives the account back exactly the
   balance it had before the debit, provided the new identifier was fresh.
   */
  lemma UseThenCancelRestoresBalance(st: State, userId: int, accountNumber: string, amount: int,
                                     t1: Instant, t2: Instant, yearLater: Instant -> Instant,
                                     u1: Uuid.Uuid, u2: Uuid.Uuid)
    requires TS.UseBalance(st, userId, accountNumber, amount, t1, u1).result.Success?
    requires FindTransaction(st.ledger, Uuid.NewTransactionId(u1)).None?
    requires 0 <= amount && t2 <= yearLater(t1)
    ensures
      var used := TS.UseBalance(st, userId, accountNumber, amount, t1, u1);
      var cancelled := TS.CancelBalance(used.state, used.result.value.transactionId, accountNumber, amount,
                                        t2, yearLater, u2);
      && cancelled.result.Success?
      && cancelled.state.accounts == st.accounts
      && cancelled.state.ledger[..|st.ledger|] == st.ledger
      && |cancelled.state.ledger| == |st.ledger| + 2
  {
    var used := TS.UseBalance(st, userId, accountNumber, amount, t1, u1);
    TS.UseSuccessCommits(st, userId, accountNumber, amount, t1, u1);
    var i := FindAccount(st.accounts, accountNumber).value;
    var a := st.accounts[i];
    var record := Transaction(Uuid.NewTransactionId(u1), a.id, a.accountNumber, USE, S, amount, a.balance - amount, t1);
    assert used.state.ledger == st.ledger + [record];
    assert used.result.value.transactionId == record.transactionId;
    CancelOfFreshDebit(st, used.state, record, i, accountNumber, amount, t2, yearLater, u2);
  }

  /** The cancel half of the round trip: the debit's record is fresh, recent and matches its account. */
  lemma CancelOfFreshDebit(st: State, st1: State, record: Transaction, i: nat, accountNumber: string, amount: int,
                           t2: Instant, yearLater: Instant -> Instant, u2: Uuid.Uuid)
    requires FindAccount(st.accounts, accountNumber) == Some(i) && i < |st.accounts|
    requires st1.accounts == st.accounts[i := st.accounts[i].(balance := st.accounts[i].balance - amount)]
    requires st1.ledger == st.ledger + [record]
    requires FindTransaction(st.ledger, record.transactionId).None?
    requires record.accountId == st.accounts[i].id && record.amount == amount
    requires t2 <= yearLater(record.transactedAt) && 0 <= amount
    ensures
      var cancelled := TS.CancelBalance(st1, record.transactionId, accountNumber, amount, t2, yearLater, u2);
      && cancelled.result.Success?
      && cancelled.state.accounts == st.accounts
      && cancelled.state.ledger[..|st.ledger|] == st.ledger
      && |cancelled.state.ledger| == |st.ledger| + 2
  {
    FindTransactionAppendFresh(st.ledger, record);
    FindAccountSameNumbers(st.accounts, st1.accounts, accountNumber);
    TS.CancelCommitsWhenMatched(st1, record.transactionId, accountNumber, amount, t2, yearLater, u2, |st.ledger|, i);
    var cancelled := TS.CancelBalance(st1, record.transactionId, accountNumber, amount, t2, yearLater, u2);
    CreditAfterDebitRestores(st, st1, cancelled.state, i, amount, record, t2, u2, cancelled.result.value);
  }

  /** Crediting back, as a committed CANCEL, what a debit took leaves the accounts as before the debit. */
  lemma CreditAfterDebitRestores(st: State, st1: State, st2: State, i: nat, amount: int, record: Transaction,
                                 t2: Instant, u2: Uuid.Uuid, dto: Dto.TransactionDto)
    requires i < |st.accounts|
    requires st1.accounts == st.accounts[i := st.accounts[i].(balance := st.accounts[i].balance - amount)]
    requires st1.ledger == st.ledger + [record]
    requires TS.Committed(st1, st2, i, amount, CANCEL, amount, t2, u2, dto)
    ensures st2.accounts == st.accounts
    ensures st2.ledger[..|st.ledger|] == st.ledger && |st2.ledger| == |st.ledger| + 2
  {
    var a := st.accounts[i];
    assert st2.accounts == st1.accounts[i := a];
    assert st2.ledger[..|st.ledger|] == st1.ledger[..|st.ledger|];
  }

  /**
   Nothing marks a cancelled record as consumed: right after a successful
   cancel, the same cancel request succeeds again and credits the account a
   second time.
   */
  lemma CancelTwice(st: State, transactionId: string, accountNumber: string, amount: int,
                    now: Instant, yearLater: Instant -> Instant, u1: Uuid.Uuid, u2: Uuid.Uuid)
    requires TS.CancelBalance(st, transactionId, accountNumber, amount, now, yearLater, u1).result.Success?
    ensures
      && FindAccount(st.accounts, accountNumber).Some?
      && var i := FindAccount(st.accounts, accountNumber).value;
         var first := TS.CancelBalance(st, transactionId, accountNumber, amount, now, yearLater, u1);
         var second := TS.CancelBalance(first.state, transactionId, accountNumber, amount, now, yearLater, u2);
         && second.result.Success?
         && second.state.accounts[i].balance == st.accounts[i].balance + 2 * amount
  {
    var first := TS.CancelBalance(st, transactionId, accountNumber, amount, now, yearLater, u1);
    TS.CancelSuccessCommits(st, transactionId, accountNumber, amount, now, yearLater, u1);
    var k := FindTransaction(st.ledger, transactionId).value;
    var i := FindAccount(st.accounts, accountNumber).value;
    var st1 := first.state;
    assert st1.ledger == st.ledger + [st1.ledger[|st.ledger|]];
    FindTransactionAppendFound(st.ledger, st1.ledger[|st.ledger|], transactionId);
    FindAccountSameNumbers(st.accounts, st1.accounts, accountNumber);
    assert st1.ledger[k] == st.ledger[k] && st1.accounts[i].id == st.accounts[i].id;
    TS.CancelCommitsWhenMatched(st1, transactionId, accountNumber, amount, now, yearLater, u2, k, i);
  }

  /**
   cancelBalance never looks at the referenced record's type or result: a
   CANCEL record, or a FAIL record, is accepted as the target exactly as a
   successful USE record would be.
   */
  lemma CancelIgnoresRecordKind(st: State, k: nat, kind: TransactionType, result: TransactionResultType,
                                transactionId: string, accountNumber: string, amount: int,
                                now: Instant, yearLater: Instant -> Instant, uuid: Uuid.Uuid)
    requires k < |st.ledger|
    ensures
      var relabelled := st.(ledger := st.ledger[k := st.ledger[k].(transactionType := kind,
                                                                  transactionResultType := result)]);
      && TS.CancelBalance(relabelled, transactionId, accountNumber, amount, now, yearLater, uuid).result
         == TS.CancelBalance(st, transactionId, accountNumber, amount, now, yearLater, uuid).result
      && TS.CancelBalance(relabelled, transactionId, accountNumber, amount, now, yearLater, uuid).state.accounts
         == TS.CancelBalance(st, transactionId, accountNumber, amount, now, yearLater, uuid).state.accounts
  {
    var relabelled := st.(ledger := st.ledger[k := st.ledger[k].(transactionType := kind,
                                                                transactionResultType := result)]);
    FindTransactionSameIds(st.ledger, relabelled.ledger, transactionId);
  }

  /** The balance a cancel credits is not checked against the account's status. */
  lemma CancelCreditsClosedAccount(st: State, transactionId: string, accountNumber: string, amount: int,
                                   now: Instant, yearLater: Instant -> Instant, uuid: Uuid.Uuid)
    requires FindTransaction(st.ledger, transactionId).Some?
    requires FindAccount(st.accounts, accountNumber).Some?
    requires st.accounts[FindAccount(st.accounts, accountNumber).value].status == UNREGISTERED
    requires st.ledger[FindTransaction(st.ledger, transactionId).value].accountId
          == st.accounts[FindAccount(st.accounts, accountNumber).value].id
    requires st.ledger[FindTransaction(st.ledger, transactionId).value].amount == amount
    requires now <= yearLater(st.ledger[FindTransaction(st.ledger, transactionId).value].transactedAt)
    requires amount > 0
    ensures
      var i := FindAccount(st.accounts, accountNumber).value;
      var r := TS.CancelBalance(st, transactionId, accountNumber, amount, now, yearLater, uuid);
      && r.result.Success?
      && r.state.accounts[i].status == UNREGISTERED
      && r.state.accounts[i].balance > st.accounts[i].balance
  {
  }

  /** A record the debit has just committed is what a query for its identifier returns. */
  lemma QueryReadsCommittedRecord(st: State, userId: int, accountNumber: string, amount: int,
                                  now: Instant, uuid: Uuid.Uuid)
    requires TS.UseBalance(st, userId, accountNumber, amount, now, uuid).result.Success?
    requires FindTransaction(st.ledger, Uuid.NewTransactionId(uuid)).None?
    ensures
      var used := TS.UseBalance(st, userId, accountNumber, amount, now, uuid);
      TS.QueryTransaction(used.state, Uuid.NewTransactionId(uuid)) == used.result
  {
    var used := TS.UseBalance(st, userId, accountNumber, amount, now, uuid);
    FindTransactionAppendFresh(st.ledger, used.state.ledger[|st.ledger|]);
    assert used.state.ledger == st.ledger + [used.state.ledger[|st.ledger|]];
  }

  /** The age check is strict: a record exactly one year old can still be cancelled. */
  lemma ExactlyOneYearAccepted(t: Transaction, account: Account, amount: int, yearLater: Instant -> Instant)
    requires t.accountId == account.id && t.amount == amount && amount >= 0
    ensures TS.ValidateCancelBalance(amount, t, account, yearLater(t.transactedAt), yearLater) == Pass
    ensures TS.ValidateCancelBalance(amount, t, account, yearLater(t.transactedAt) + 1, yearLater)
         == Fail(AccountError(TOO_OLD_TRANSACTION_TO_CANCEL))
  {
  }
}

=== FILE: transaction_service.dfy ===
/**
 The balance transaction engine: the debit (useBalance), the compensating
 credit (cancelBalance), the FAIL records written after a rejected request,
 and the read of a record by its identifier.

 The clock and the UUID source are parameters: `now` is the time every
 check and every new record sees, `yearLater` is LocalDateTime.plusYears(1)
 and `uuid` is the random UUID the next record's identifier is made from.
 */
module TransactionService {
  import opened Types
  import opened Repository
  import AccountEntity
  import Dto
  import Uuid

  /** saveTransaction's record: it snapshots the balance of the account as passed in. */
  function NewRecord(account: Account, amount: int, resultType: TransactionResultType,
                     transactionType: TransactionType, now: Instant, uuid: Uuid.Uuid): (t: Transaction)
    ensures t.balanceSnapshot == account.balance && t.amount == amount
    ensures t.accountId == account.id && t.accountNumber == account.accountNumber
    ensures t.transactionType == transactionType && t.transactionResultType == resultType
    ensures t.transactedAt == now && |t.transactionId| == 32
  {
    Transaction(Uuid.NewTransactionId(uuid), account.id, account.accountNumber,
                transactionType, resultType, amount, account.balance, now)
  }

  /**
   The effect of a committed debit or credit: account `i` moved by `delta`,
   no other account and no user touched, and exactly one S record of the
   given type appended whose snapshot is the new balance; `dto` describes it.
   */
  ghost predicate Committed(st: State, st': State, i: nat, delta: int, transactionType: TransactionType,
                            amount: int, now: Instant, uuid: Uuid.Uuid, dto: Dto.TransactionDto)
    requires i < |st.accounts|
  {
    var a := st.accounts[i];
    var record := Transaction(Uuid.NewTransactionId(uuid), a.id, a.accountNumber, transactionType, S,
                              amount, a.balance + delta, now);
    && st'.users == st.users
    && st'.accounts == st.accounts[i := a.(balance := a.balance + delta)]
    && st'.ledger == st.ledger + [record]
    && dto == Dto.FromEntity(record)
  }

  /**
   The end of a successful debit or credit: the moved account is flushed in
   place of the old one and saveTransaction appends its S record, which
   snapshots the new balance.
   */
  function Commit(st: State, i: nat, moved: Account, delta: int, transactionType: TransactionType, amount: int,
                  now: Instant, uuid: Uuid.Uuid): (r: Step<Dto.TransactionDto>)
    requires i < |st.accounts| && moved.(balance := st.accounts[i].balance) == st.accounts[i]
    requires moved.balance == st.accounts[i].balance + delta
    ensures r.result.Success?
    ensures Committed(st, r.state, i, delta, transactionType, amount, now, uuid, r.result.value)
  {
    var record := NewRecord(moved, amount, S, transactionType, now, uuid);
    Step(st.(accounts := st.accounts[i := moved], ledger := st.ledger + [record]), Success(Dto.FromEntity(record)))
  }

  /** validateUseBalance: ownership, then status, then sufficiency. */
  function ValidateUseBalance(amount: int, user: AccountUser, account: Account): (o: Outcome)
    ensures o.Fail? ==> o.error.AccountError?
    ensures o == Pass <==> user.id == account.owner.id && account.status == IN_USE && amount <= account.balance
  {
    if user.id != account.owner.id then Fail(AccountError(ACCOUNT_OWNER_UN_MATCH))
    else if account.status != IN_USE then Fail(AccountError(ACCOUNT_ALREADY_UNREGISTERED))
    else if account.balance < amount then Fail(AccountError(AMOUNT_EXCEED_BALANCE))
    else Pass
  }

  /** TransactionService.useBalance */
  function UseBalance(st: State, userId: int, accountNumber: string, amount: int,
                      now: Instant, uuid: Uuid.Uuid): (r: Step<Dto.TransactionDto>)
    ensures r.result.Failure? ==> r.state == st && r.result.error.AccountError?
    ensures |r.state.accounts| == |st.accounts|
    ensures userId !in st.users ==> r.result == Failure(AccountError(USER_NOT_FOUND))
    ensures userId in st.users && FindAccount(st.accounts, accountNumber).None?
            ==> r.result == Failure(AccountError(ACCOUNT_NOT_FOUND))
    ensures userId in st.users && FindAccount(st.accounts, accountNumber).Some? ==>
      var i := FindAccount(st.accounts, accountNumber).value;
      var a := st.accounts[i];
      var owns := st.users[userId].id == a.owner.id;
      var usable := owns && a.status == IN_USE;
      && (!owns ==> r.result == Failure(AccountError(ACCOUNT_OWNER_UN_MATCH)))
      && (owns && a.status != IN_USE ==> r.result == Failure(AccountError(ACCOUNT_ALREADY_UNREGISTERED)))
      && (usable && a.balance < amount ==> r.result == Failure(AccountError(AMOUNT_EXCEED_BALANCE)))
      && (usable && amount <= a.balance ==> r.result.Success?)
      && (usable && amount <= a.balance ==> Committed(st, r.state, i, -amount, USE, amount, now, uuid, r.result.value))
  {
    match FindUser(st, userId)
    case None => Step(st, Failure(AccountError(USER_NOT_FOUND)))
    case Some(user) =>
      match FindAccount(st.accounts, accountNumber)
      case None => Step(st, Failure(AccountError(ACCOUNT_NOT_FOUND)))
      case Some(i) =>
        var account := st.accounts[i];
        match ValidateUseBalance(amount, user, account)
        case Fail(e) => Step(st, Failure(e))
        case Pass =>
          match AccountEntity.UseBalance(account, amount)
          case Failure(e) => Step(st, Failure(e))
          case Success(debited) => Commit(st, i, debited, -amount, USE, amount, now, uuid)
  }

  /**
   The entity's own guard (amount > balance) refuses exactly what
   validateUseBalance's sufficiency check refuses, so once validation has
   passed the entity never throws.
   */
  lemma EntityGuardMatchesValidation(user: AccountUser, account: Account, amount: int)
    requires user.id == account.owner.id && account.status == IN_USE
    ensures ValidateUseBalance(amount, user, account) == Fail(AccountError(AMOUNT_EXCEED_BALANCE))
        <==> AccountEntity.UseBalance(account, amount).Failure?
    ensures ValidateUseBalance(amount, user, account) == Pass
        ==> AccountEntity.UseBalance(account, amount).Success?
  {
  }

  /** validateCancelBalance: account identity, amount, age, then sign. */
  function ValidateCancelBalance(amount: int, t: Transaction, account: Account,
                                 now: Instant, yearLater: Instant -> Instant): (o: Outcome)
    ensures o.Fail? ==> o.error.AccountError?
    ensures o == Pass <==>
      t.accountId == account.id && t.amount == amount && now <= yearLater(t.transactedAt) && amount >= 0
    ensures t.accountId != account.id ==> o == Fail(AccountError(TRANSACTION_ACCOUNT_UN_MATCH))
    ensures t.accountId == account.id && t.amount != amount ==> o == Fail(AccountError(TRANSACTION_AMOUNT_UN_MATCH))
    ensures t.accountId == account.id && t.amount == amount && yearLater(t.transactedAt) < now
            ==> o == Fail(AccountError(TOO_OLD_TRANSACTION_TO_CANCEL))
    ensures t.accountId == account.id && t.amount == amount && now <= yearLater(t.transactedAt) && amount < 0
            ==> o == Fail(AccountError(INVALID_REQUEST))
  {
    if t.accountId != account.id then Fail(AccountError(TRANSACTION_ACCOUNT_UN_MATCH))
    else if t.amount != amount then Fail(AccountError(TRANSACTION_AMOUNT_UN_MATCH))
    else if yearLater(t.transactedAt) < now then Fail(AccountError(TOO_OLD_TRANSACTION_TO_CANCEL))
    else if amount < 0 then Fail(AccountError(INVALID_REQUEST))
    else Pass
  }

  /** TransactionService.cancelBalance */
  function CancelBalance(st: State, transactionId: string, accountNumber: string, amount: int,
                         now: Instant, yearLater: Instant -> Instant, uuid: Uuid.Uuid): (r: Step<Dto.TransactionDto>)
    ensures r.result.Failure? ==> r.state == st && r.result.error.AccountError?
    ensures |r.state.accounts| == |st.accounts|
    ensures FindTransaction(st.ledger, transactionId).None?
            ==> r.result == Failure(AccountError(TRANSACTION_NOT_FOUND))
    ensures FindTransaction(st.ledger, transactionId).Some? && FindAccount(st.accounts, accountNumber).None?
            ==> r.result == Failure(AccountError(ACCOUNT_NOT_FOUND))
    ensures FindTransaction(st.ledger, transactionId).Some? && FindAccount(st.accounts, accountNumber).Some? ==>
      var t := st.ledger[FindTransaction(st.ledger, transactionId).value];
      var i := FindAccount(st.accounts, accountNumber).value;
      var o := ValidateCancelBalance(amount, t, st.accounts[i], now, yearLater);
      && (o.Fail? ==> r.result == Failure(o.error))
      && (o == Pass ==> r.result.Success? && Committed(st, r.state, i, amount, CANCEL, amount, now, uuid, r.result.value))
  {
    match FindTransaction(st.ledger, transactionId)
    case None => Step(st, Failure(AccountError(TRANSACTION_NOT_FOUND)))
    case Some(k) =>
      match FindAccount(st.accounts, accountNumber)
      case None => Step(st, Failure(AccountError(ACCOUNT_NOT_FOUND)))
      case Some(i) =>
        var account := st.accounts[i];
        var checked := ValidateCancelBalance(amount, st.ledger[k], account, now, yearLater);
        if checked.Fail? then Step(st, Failure(checked.error))
        else Commit(st, i, AccountEntity.CancelBalance(account, amount), amount, CANCEL, amount, now, uuid)
  }

  /** A debit that succeeds was one on a usable account it covered, and committed it. */
  lemma UseSuccessCommits(st: State, userId: int, accountNumber: string, amount: int, now: Instant, uuid: Uuid.Uuid)
    requires UseBalance(st, userId, accountNumber, amount, now, uuid).result.Success?
    ensures userId in st.users && FindAccount(st.accounts, accountNumber).Some?
    ensures
      var r := UseBalance(st, userId, accountNumber, amount, now, uuid);
      var i := FindAccount(st.accounts, accountNumber).value;
      && st.accounts[i].owner.id == st.users[userId].id && st.accounts[i].status == IN_USE
      && amount <= st.accounts[i].balance
      && Committed(st, r.state, i, -amount, USE, amount, now, uuid, r.result.value)
  {
  }

  /** A credit that succeeds matched its record in account, amount and age, and committed it. */
  lemma CancelSuccessCommits(st: State, transactionId: string, accountNumber: string, amount: int,
                             now: Instant, yearLater: Instant -> Instant, uuid: Uuid.Uuid)
    requires CancelBalance(st, transactionId, accountNumber, amount, now, yearLater, uuid).result.Success?
    ensures FindTransaction(st.ledger, transactionId).Some? && FindAccount(st.accounts, accountNumber).Some?
    ensures
      var r := CancelBalance(st, transactionId, accountNumber, amount, now, yearLater, uuid);
      var t := st.ledger[FindTransaction(st.ledger, transactionId).value];
      var i := FindAccount(st.accounts, accountNumber).value;
      && t.accountId == st.accounts[i].id && t.amount == amount && now <= yearLater(t.transactedAt) && amount >= 0
      && Committed(st, r.state, i, amount, CANCEL, amount, now, uuid, r.result.value)
  {
  }

  /** Conversely, a cancel whose record and account are found and match, within the year, commits. */
  lemma CancelCommitsWhenMatched(st: State, transactionId: string, accountNumber: string, amount: int,
                                 now: Instant, yearLater: Instant -> Instant, uuid: Uuid.Uuid, k: nat, i: nat)
    requires FindTransaction(st.ledger, transactionId) == Some(k) && FindAccount(st.accounts, accountNumber) == Some(i)
    requires k < |st.ledger| && i < |st.accounts|
    requires st.ledger[k].accountId == st.accounts[i].id && st.ledger[k].amount == amount
    requires now <= yearLater(st.ledger[k].transactedAt) && amount >= 0
    ensures
      var r := CancelBalance(st, transactionId, accountNumber, amount, now, yearLater, uuid);
      && r.result.Success?
      && Committed(st, r.state, i, amount, CANCEL, amount, now, uuid, r.result.value)
  {
  }

  /** The shared body of the two FAIL-recording operations. */
  function SaveFailed(st: State, accountNumber: string, amount: int, transactionType: TransactionType,
                      now: Instant, uuid: Uuid.Uuid): (r: Step<()>)
    ensures FindAccount(st.accounts, accountNumber).None? ==> r == Step(st, Failure(AccountError(ACCOUNT_NOT_FOUND)))
    ensures FindAccount(st.accounts, accountNumber).Some? ==>
      var a := st.accounts[FindAccount(st.accounts, accountNumber).value];
      && r.result.Success?
      && r.state == st.(ledger := st.ledger + [Transaction(Uuid.NewTransactionId(uuid), a.id, a.accountNumber,
                                                           transactionType, F, amount, a.balance, now)])
  {
    match FindAccount(st.accounts, accountNumber)
    case None => Step(st, Failure(AccountError(ACCOUNT_NOT_FOUND)))
    case Some(i) =>
      var record := NewRecord(st.accounts[i], amount, F, transactionType, now, uuid);
      Step(st.(ledger := st.ledger + [record]), Success(()))
  }

  /** TransactionService.saveFailedUseTransaction */
  function SaveFailedUseTransaction(st: State, accountNumber: string, amount: int,
                                    now: Instant, uuid: Uuid.Uuid): (r: Step<()>)
    ensures r.state.users == st.users && r.state.accounts == st.accounts
    ensures r.result.Failure? <==> FindAccount(st.accounts, accountNumber).None?
    ensures r.result.Failure? ==> r.state == st && r.result.error == AccountError(ACCOUNT_NOT_FOUND)
    ensures r.result.Success? ==>
      var a := st.accounts[FindAccount(st.accounts, accountNumber).value];
      && |r.state.ledger| == |st.ledger| + 1 && r.state.ledger[..|st.ledger|] == st.ledger
      && var t := r.state.ledger[|st.ledger|];
      && t.transactionType == USE && t.transactionResultType == F
      && t.amount == amount && t.balanceSnapshot == a.balance && t.accountNumber == accountNumber
  {
    SaveFailed(st, accountNumber, amount, USE, now, uuid)
  }

  /** TransactionService.saveFailedCancelTransaction */
  function SaveFailedCancelTransaction(st: State, accountNumber: string, amount: int,
                                       now: Instant, uuid: Uuid.Uuid): (r: Step<()>)
    ensures r.state.users == st.users && r.state.accounts == st.accounts
    ensures r.result.Failure? <==> FindAccount(st.accounts, accountNumber).None?
    ensures r.result.Failure? ==> r.state == st && r.result.error == AccountError(ACCOUNT_NOT_FOUND)
    ensures r.result.Success? ==>
      var a := st.accounts[FindAccount(st.accounts, accountNumber).value];
      && |r.state.ledger| == |st.ledger| + 1 && r.state.ledger[..|st.ledger|] == st.ledger
      && var t := r.state.ledger[|st.ledger|];
      && t.transactionType == CANCEL && t.transactionResultType == F
      && t.amount == amount && t.balanceSnapshot == a.balance && t.accountNumber == accountNumber
  {
    SaveFailed(st, accountNumber, amount, CANCEL, now, uuid)
  }

  /** queryTransaction: the DTO of the record with this identifier. */
  function QueryTransaction(st: State, transactionId: string): (r: Result<Dto.TransactionDto>)
    ensures r.Failure? <==> forall j :: 0 <= j < |st.ledger| ==> st.ledger[j].transactionId != transactionId
    ensures r.Failure? ==> r.error == AccountError(TRANSACTION_NOT_FOUND)
    ensures r.Success? ==> r.value.transactionId == transactionId
    ensures r.Success? ==> exists j :: 0 <= j < |st.ledger| && r.value == Dto.FromEntity(st.ledger[j])
  {
    match FindTransaction(st.ledger, transactionId)
    case None => Failure(AccountError(TRANSACTION_NOT_FOUND))
    case Some(k) => Success(Dto.FromEntity(st.ledger[k]))
  }
}

=== FILE: types.dfy ===
/**
 The data model of the account service: users, accounts, ledger records,
 the error codes the services raise, and the explicit state every
 operation of the model reads and returns.
 */
module Types {

  /** A point in time, in some fixed unit; only its order matters. */
  type Instant = int

  datatype Option<+T> = None | Some(value: T)

  /** Every error code the services raise, in one enumeration. */
  datatype ErrorCode =
    | USER_NOT_FOUND
    | ACCOUNT_NOT_FOUND
    | ACCOUNT_OWNER_UN_MATCH
    | BALANCE_REMAIN
    | ACCOUNT_ALREADY_UNREGISTERED
    | EXCEED_MAX_ACCOUNT_SIZE
    | AMOUNT_EXCEED_BALANCE
    | TRANSACTION_NOT_FOUND
    | TRANSACTION_ACCOUNT_UN_MATCH
    | TRANSACTION_AMOUNT_UN_MATCH
    | TOO_OLD_TRANSACTION_TO_CANCEL
    | INVALID_REQUEST
    | ACCOUNT_TRANSACTION_LOCK

  /**
   What an operation can throw. Only `AccountError` is the service's own
   exception; the controller's compensation catches that one and no other.
   */
  datatype Exception =
    | AccountError(code: ErrorCode)
    | RequestNotValid     // bean validation rejected the request body
    | NumberFormat        // Integer.parseInt refused its argument
    | NegativeId          // getAccount's guard on a negative id
    | NoSuchElement       // Optional.get on an empty result

  datatype Result<+T> = Success(value: T) | Failure(error: Exception)

  /** The result of a check that returns nothing but may throw. */
  datatype Outcome = Pass | Fail(error: Exception)

  datatype AccountStatus = IN_USE | UNREGISTERED

  datatype TransactionType = USE | CANCEL

  /** S for success, F for failure. */
  datatype TransactionResultType = S | F

  datatype AccountUser = AccountUser(id: int, name: string)

  datatype Account = Account(
    id: int,
    accountNumber: string,
    status: AccountStatus,
    owner: AccountUser,
    balance: int,
    unRegisteredAt: Option<Instant>)

  /**
   A ledger record. The account it belongs to is kept as that account's id
   and number, which never change once the account exists.
   */
  datatype Transaction = Transaction(
    transactionId: string,
    accountId: int,
    accountNumber: string,
    transactionType: TransactionType,
    transactionResultType: TransactionResultType,
    amount: int,
    balanceSnapshot: int,
    transactedAt: Instant)

  /**
   What the repositories hold: users by id, accounts in the order their ids
   were generated, and the ledger. That the last account has the greatest id
   is an invariant of the reachable states (Safety.ReachableNewestIsLast).
   */
  datatype State = State(
    users: map<int, AccountUser>,
    accounts: seq<Account>,
    ledger: seq<Transaction>)

  /** An operation's effect: the state after it, and its value or exception. */
  datatype Step<+T> = Step(state: State, result: Result<T>)
}

=== FILE: uuid.dfy ===
/**
 Transaction identifiers: a random UUID printed in the canonical text form
 of section 3 of RFC 4122 (32 lower-case hexadecimal digits in groups of
 8-4-4-4-12 joined by hyphens), with every hyphen then removed. The random
 source itself is an oracle: callers pass the UUID in.
 */
module Uuid {

  function Pow16(n: nat): (p: nat)
    ensures p >= 1
  {
    if n == 0 then 1 else 16 * Pow16(n - 1)
  }

  /** 2^128, the number of distinct UUID values. */
  const UUID_BOUND: nat := 0x1_0000_0000_0000_0000_0000_0000_0000_0000

  /** A 128-bit UUID value. */
  type Uuid = u: nat | u < UUID_BOUND witness 0

  /** 32 hexadecimal digits hold exactly the 128-bit values. */
  lemma UuidDigits()
    ensures Pow16(32) == UUID_BOUND
  {
    assert Pow16(8) == 0x1_0000_0000;
    assert Pow16(16) == 0x1_0000_0000_0000_0000 by {
      Pow16Add(8, 8);
    }
    Pow16Add(16, 16);
  }

  lemma {:induction false} Pow16Add(a: nat, b: nat)
    ensures Pow16(a + b) == Pow16(a) * Pow16(b)
  {
    if a > 0 {
      Pow16Add(a - 1, b);
      assert Pow16(a + b) == 16 * Pow16(a - 1 + b);
    }
  }

  predicate IsHexChar(c: char) {
    '0' <= c <= '9' || 'a' <= c <= 'f'
  }

  predicate AllHex(s: string) {
    forall i :: 0 <= i < |s| ==> IsHexChar(s[i])
  }

  /** The lower-case hexadecimal digit of value `d`. */
  function HexChar(d: nat): (c: char)
    requires d < 16
    ensures IsHexChar(c)
  {
    if d < 10 then (('0' as int) + d) as char else (('a' as int) + d - 10) as char
  }

  function HexValue(c: char): (d: nat)
    requires IsHexChar(c)
    ensures d < 16 && HexChar(d) == c
    ensures forall e :: 0 <= e < 16 && HexChar(e) == c ==> e == d
  {
    if c <= '9' then (c as int) - ('0' as int) else (c as int) - ('a' as int) + 10
  }

  /** The low `n` hexadecimal digits of `v`, most significant first. */
  function Hex(v: nat, n: nat): (s: string)
    ensures |s| == n && AllHex(s)
  {
    if n == 0 then [] else Hex(v / 16, n - 1) + [HexChar(v % 16)]
  }

  /** The value of a string of hexadecimal digits, most significant first. */
  function ParseHex(s: string): nat
    requires AllHex(s)
  {
    if |s| == 0 then 0 else 16 * ParseHex(s[..|s| - 1]) + HexValue(s[|s| - 1])
  }

  lemma {:induction false} ParseHexOf(v: nat, n: nat)
    requires v < Pow16(n)
    ensures ParseHex(Hex(v, n)) == v
  {
    if n > 0 {
      var s := Hex(v, n);
      assert s[..n - 1] == Hex(v / 16, n - 1);
      assert v / 16 < Pow16(n - 1);
      ParseHexOf(v / 16, n - 1);
      assert HexValue(s[n - 1]) == v % 16;
    }
  }

  /** Hexadecimal digits in the 8-4-4-4-12 groups of the canonical UUID text, joined by hyphens. */
  function Hyphenate(h: string): (t: string)
    requires |h| == 32
    ensures |t| == 36
    ensures t[8] == '-' && t[13] == '-' && t[18] == '-' && t[23] == '-'
    ensures t[..8] == h[..8] && t[9..13] == h[8..12] && t[14..18] == h[12..16]
    ensures t[19..23] == h[16..20] && t[24..] == h[20..]
  {
    h[..8] + "-" + h[8..12] + "-" + h[12..16] + "-" + h[16..20] + "-" + h[20..]
  }

  /** A position of the canonical text that holds a hyphen. */
  predicate IsHyphenPosition(p: int) {
    p == 8 || p == 13 || p == 18 || p == 23
  }

  /**
   The canonical text of section 3 of RFC 4122, as UUID.toString prints it:
   hyphens at positions 8, 13, 18 and 23, a lower-case hex digit everywhere
   else, and those digits, read without the hyphens, are the UUID's 32 digits.
   */
  function CanonicalText(u: Uuid): (t: string)
    ensures |t| == 36
    ensures forall p :: 0 <= p < 36 && IsHyphenPosition(p) ==> t[p] == '-'
    ensures forall p :: 0 <= p < 36 && !IsHyphenPosition(p) ==> IsHexChar(t[p])
    ensures RemoveHyphens(t) == Hex(u, 32)
  {
    var h := Hex(u, 32);
    RemovesGroupHyphens(h);
    var t := Hyphenate(h);
    forall p | 0 <= p < 36 && !IsHyphenPosition(p)
      ensures IsHexChar(t[p])
    {
      if p < 8 {
        assert t[p] == t[..8][p];
      } else if p < 13 {
        assert t[p] == t[9..13][p - 9];
      } else if p < 18 {
        assert t[p] == t[14..18][p - 14];
      } else if p < 23 {
        assert t[p] == t[19..23][p - 19];
      } else {
        assert t[p] == t[24..][p - 24];
      }
    }
    t
  }

  /** String.replace("-", ""): every hyphen removed, everything else kept in order. */
  function RemoveHyphens(s: string): (r: string)
    ensures |r| <= |s|
    ensures forall i :: 0 <= i < |r| ==> r[i] != '-'
  {
    if |s| == 0 then [] else (if s[0] == '-' then [] else [s[0]]) + RemoveHyphens(s[1..])
  }

  lemma {:induction false} RemoveHyphensConcat(a: string, b: string)
    ensures RemoveHyphens(a + b) == RemoveHyphens(a) + RemoveHyphens(b)
  {
    if |a| > 0 {
      assert (a + b)[1..] == a[1..] + b;
      RemoveHyphensConcat(a[1..], b);
    } else {
      assert a + b == b;
    }
  }

  lemma JoinHyphen(x: string, y: string)
    ensures RemoveHyphens(x + "-" + y) == RemoveHyphens(x) + RemoveHyphens(y)
  {
    RemoveHyphensConcat(x + "-", y);
    RemoveHyphensConcat(x, "-");
  }

  lemma {:induction false} RemoveHyphensKeeps(s: string)
    requires AllHex(s)
    ensures RemoveHyphens(s) == s
  {
    if |s| > 0 {
      RemoveHyphensKeeps(s[1..]);
    }
  }

  /** Removing the hyphens from grouped hexadecimal digits gives back the digits. */
  lemma RemovesGroupHyphens(h: string)
    requires |h| == 32 && AllHex(h)
    ensures RemoveHyphens(Hyphenate(h)) == h
  {
    var g1, g2, g3, g4, g5 := h[..8], h[8..12], h[12..16], h[16..20], h[20..];
    RemoveHyphensKeeps(g1);
    RemoveHyphensKeeps(g2);
    RemoveHyphensKeeps(g3);
    RemoveHyphensKeeps(g4);
    RemoveHyphensKeeps(g5);
    var t2 := g1 + "-" + g2;
    JoinHyphen(g1, g2);
    var t3 := t2 + "-" + g3;
    JoinHyphen(t2, g3);
    var t4 := t3 + "-" + g4;
    JoinHyphen(t3, g4);
    var t5 := t4 + "-" + g5;
    JoinHyphen(t4, g5);
    assert t5 == Hyphenate(h);
    assert h[..12] == g1 + g2;
    assert h[..16] == h[..12] + g3;
    assert h[..20] == h[..16] + g4;
    assert h == h[..20] + g5;
  }

  /**
   The identifier saveTransaction gives a new record: 32 hexadecimal digits
   that spell the UUID, so distinct UUIDs never give the same identifier.
   */
  function NewTransactionId(u: Uuid): (id: string)
    ensures |id| == 32 && AllHex(id)
    ensures ParseHex(id) == u
  {
    UuidDigits();
    ParseHexOf(u, 32);
    RemoveHyphens(CanonicalText(u))
  }

  lemma NewTransactionIdInjective(u1: Uuid, u2: Uuid)
    ensures NewTransactionId(u1) == NewTransactionId(u2) <==> u1 == u2
  {
  }
}
